=== FILE: README.md ===
# Korean placement assessment scoring engine — Dafny model

This project models the scoring engine of a Korean-language placement
assessment. A learner answers a fixed set of items. Each item is scored by
its configured scorer, in [0, 1] for a well-formed configuration (see "Left
out" for the cases that can leave it). There are five kinds of scorer:

- a single-choice rule table;
- three text heuristics: self-introduction, past routine, polite rewrite to a professor;
- two placeholder pronunciation scorers that compare a speech transcript with target words or sentences.

Item scores are averaged per domain, weighted by each item's domain weights.
Each domain average is mapped to a band (0..5) through a band table. The
bands of the included domains are averaged, rounded half-to-even and
clamped to give the global stage. A stage is described by its SKLC level
name in English or Korean. `get_sklc_description` defaults its language to
"en", so a call without one is `Levels.Describe(stage, "en")`.

Modules, one per part of `scoring.py`:

| module | file | models |
|---|---|---|
| `Types` | types.dfy | the assessment configuration: items, scoring configs, params, band table, stage settings, results |
| `Lexical` | lexical.dfy | substring tests, sentence counting, space removal |
| `Mcq` | mcq.dfy | `score_mcq_single` |
| `TextHeuristics` | heuristics.dfy | the three text heuristics |
| `AudioPlaceholders` | audio.dfy | the two transcript-based pronunciation placeholders |
| `Dispatch` | dispatch.dfy | `SCORING_METHODS` and `score_item` |
| `Aggregation` | aggregation.dfy | `compute_domain_scores` and `score_to_band` |
| `Stage` | stage.dfy | the global-stage calculation inside `compute_results` |
| `Engine` | engine.dfy | `compute_results` |
| `Levels` | levels.dfy | `SKLC_LEVEL_DESCRIPTIONS` and `get_sklc_description` |
| `Arith` | arith.dfy | shared facts about real quotients |

How the model represents the source:

- Scores and weights are `real`: exact rationals, not IEEE doubles.
- Regular expressions configured in `patterns` are functions supplied with
  the params: a match counter for the past-tense pattern, and a match test
  for the polite and casual endings. Each default pattern is written out
  exactly:
  - `(았|었|했)` counts occurrences of those three syllables;
  - `(요|습니다)` tests for either ending;
  - the casual pattern tests for `어?`, `어.`, `했어`, `냈어` or `돼?`.
- Python's `in` on strings is `Lexical.Contains`, a contiguous-substring
  test. `str.strip()` emptiness is `Lexical.IsBlank` over Python's
  whitespace characters.
- A learner's responses are a `map<string, string>` from item id to text.
  A missing id reads as `""`, as `responses.get(item_id, "")` does.
  Audio scorers receive that text as a present (possibly empty) transcript.

Three behaviours of the code that a reader might not expect:

- The global stage is 0 when no included domain has a band, whatever the
  configured minimum stage (`scoring.py:400-401`).
- `round` is Python's round-half-to-even (`scoring.py:395`). An average
  band of 2.5 gives stage 2 and 3.5 gives stage 4
  (`Stage.TiedAverageScenario`).
- The word-list scorer reads a `thresholds` parameter and never uses it
  (`scoring.py:209`). Its step thresholds 0.85 / 0.7 / 0.5 are fixed.

## Model

| member | source | states |
|---|---|---|
| Mcq.ScoreMcqSingle | scoring.py:32-50 | the score is the score of the first rule whose condition matches (exact id, any non-empty selection, or membership in a list); 0.0 when no rule matches; within [0, 1] when every rule score is |
| Mcq.Matches | scoring.py:36-48 | defines when a condition fires: exact id equality, any non-empty response for a true "any" flag, or membership in the listed ids |
| Mcq.ScoreIsFirstMatchScore | scoring.py:32-50 | the score equals the score of the rule an independent first-match search finds, and 0.0 when no rule matches |
| Mcq.FirstMatchIndex | scoring.py:32-48 | when some rule matches, there is a first matching rule, and no earlier rule matches |
| Mcq.LaterRulesIrrelevant | scoring.py:32-48 | rules after a matching rule can be replaced by anything without changing the score |
| Mcq.ExactSelectionScenario | scoring.py:36-38 | selecting option "2" under a rule for exactly "2" with score 0.8 scores 0.8 |
| Mcq.AnyRuleIgnoresEmpty | scoring.py:41-43 | an "any selection" rule does not fire for an empty response, which scores 0.0 |
| Lexical.CountPresent | scoring.py:86 | the number of listed words occurring in the text is at most the list length, equals it exactly when every word occurs, and is 0 exactly when none does |
| Lexical.CountPresentIsCardinality | scoring.py:86 | the count is exactly the number of list positions whose word occurs in the text |
| Lexical.IsBlank | scoring.py:68 | defines `not text.strip()`: the text holds only whitespace characters |
| Lexical.Contains | scoring.py:86 | defines Python's `w in t` on strings: `w` occurs contiguously at some position of `t` |
| Lexical.AnyPresent | scoring.py:166 | defines `any(term in text for term in terms)`: some listed term occurs in the text |
| Lexical.CountTerminators | scoring.py:59 | defines `len(re.findall(r'[.?!。]', text))`: the number of `.`, `?`, `!` and `。` characters |
| Lexical.CountSentences | scoring.py:57-60 | blank text has 0 sentences; other text has at least 1, and exactly the number of `.?!。` terminators when there is at least one |
| Lexical.CountTerminatorsAppend | scoring.py:59 | terminator counts add up over concatenation |
| Lexical.NoTerminatorsCountsZero | scoring.py:59-60 | text without terminators has terminator count 0, so non-blank text without them counts as one sentence |
| Lexical.RemoveSpaces | scoring.py:238-239 | `replace(" ", "")` keeps only characters of the input, none of them a space, and never lengthens it |
| Lexical.RemoveSpacesAppend | scoring.py:238 | space removal distributes over concatenation |
| Lexical.RemoveSpacesNoSpace | scoring.py:239 | text without spaces is left unchanged |
| Lexical.RemoveSpacesIdempotent | scoring.py:239 | removing spaces twice is the same as once |
| TextHeuristics.TierMonotone | scoring.py:79-98 | a "full credit at threshold, partial credit at one hit" tier never decreases with more hits and stays in [0, weight] |
| TextHeuristics.Tier | scoring.py:79-98 | defines one graded criterion: the full weight at or above the threshold, the partial fraction of it for at least one hit, 0 otherwise |
| TextHeuristics.SelfIntroCredit | scoring.py:75-104 | the self-introduction credit never exceeds 1.0 and is non-negative when the weights are |
| TextHeuristics.SelfIntroFeaturesOf | scoring.py:78-101 | defines what the self-introduction heuristic observes: the sentence count, the basic-verb and topic-word hits (default lexicons empty) and the text length |
| TextHeuristics.SelfIntroScore | scoring.py:63-104 | blank text scores 0.0; the score is at most 1.0 and non-negative for non-negative weights |
| TextHeuristics.SelfIntroMonotone | scoring.py:77-104 | more sentences, verbs, topic words or length never lower the credit |
| TextHeuristics.SelfIntroWorkedExample | scoring.py:77-104 | two sentences, two basic verbs, no topic words and 50 or fewer characters score 0.3 + 0.3 = 0.6 |
| TextHeuristics.SelfIntroFullMarks | scoring.py:77-104 | with default weights, meeting every threshold plus the length bonus scores exactly 1.0 |
| TextHeuristics.ContentCredit | scoring.py:137-144 | content credit is the full weight once the hits reach the minimum, proportional to hits below it (credit × minimum = weight × hits), 0 with no hit, and in [0, weight] |
| TextHeuristics.ContentCreditMonotone | scoring.py:141-144 | more content-word hits never lower the content credit |
| TextHeuristics.PastRoutineCredit | scoring.py:120-146 | the past-routine credit never exceeds 1.0 and is non-negative when the weights are |
| TextHeuristics.PastRoutineFeaturesOf | scoring.py:123-140 | defines what the past-routine heuristic observes: the sentence count, the past-tense match count (default pattern `(았|었|했)`) and the content-word hits (default lexicon empty) |
| TextHeuristics.PastRoutineScore | scoring.py:107-146 | blank text scores 0.0; the score is at most 1.0 and non-negative for non-negative weights |
| TextHeuristics.DefaultPastTenseCount | scoring.py:130-131 | defines the match count of the default pattern `(았|었|했)`: the occurrences of those three syllables |
| TextHeuristics.PastRoutineMonotone | scoring.py:122-146 | more sentences, past-tense matches or content words never lower the credit |
| TextHeuristics.PastRoutineFullMarks | scoring.py:122-146 | with default weights and thresholds, two sentences, two past-tense matches and three content words score exactly 1.0 |
| TextHeuristics.PoliteCredit | scoring.py:162-189 | the polite-rewrite credit lies in [0, 1]: it equals the raw sum when that lies in [0, 1], is 1.0 when the sum is at least 1 and 0.0 when the sum is at most 0 |
| TextHeuristics.DefaultPoliteEnding | scoring.py:175-176 | defines a search for the default pattern `(요|습니다)`: either ending occurs |
| TextHeuristics.DefaultCasualEnding | scoring.py:185-186 | defines a search for the default casual pattern: `어?`, `어.`, `했어`, `냈어` or `돼?` occurs |
| TextHeuristics.PoliteRaw | scoring.py:164-187 | defines the uncapped sum: each present signal adds its weight (defaults 0.2, 0.2, 0.4), at least two request keywords add the request weight (default 0.2), and a casual ending adds the penalty weight (default -0.3) |
| TextHeuristics.PoliteSignalsOf | scoring.py:165-186 | defines the polite-rewrite signals: professor terms (default `["교수님"]`), apology terms (default `["죄송", "실례"]`), the polite and casual patterns (defaults `(요|습니다)` and the five casual endings), and the request-keyword count |
| TextHeuristics.PoliteRewriteScore | scoring.py:149-189 | blank text scores 0.0 and every score lies in [0, 1] |
| TextHeuristics.CasualPenaltyNeverRaises | scoring.py:184-189 | with a non-positive casual penalty, a casual ending never raises the score |
| TextHeuristics.CasualOnlyScoresZero | scoring.py:184-189 | with default weights, a reply whose only signal is a casual ending is clamped up to 0.0 |
| TextHeuristics.PoliteFullMarks | scoring.py:164-189 | with default weights, professor address, apology, polite ending and two request keywords without a casual ending score exactly 1.0 |
| AudioPlaceholders.Step | scoring.py:215-222 | the step function always yields one of 1.0, 0.7, 0.4, 0.2 |
| AudioPlaceholders.NoTranscript | scoring.py:205 | defines `not audio_transcript`: no transcript, or an empty one |
| AudioPlaceholders.StepMonotone | scoring.py:215-222 | a higher ratio never receives a lower step |
| AudioPlaceholders.StepIntervals | scoring.py:244-251 | each step value is produced exactly on its ratio interval |
| AudioPlaceholders.WordMatchRatio | scoring.py:212-213 | with targets, the ratio is the number of targets found over the number of targets; 0 without targets; in [0, 1], 1 exactly when every target occurs and 0 exactly when none does |
| AudioPlaceholders.PronWordlistScore | scoring.py:205-222 | no transcript gives 0.5; otherwise 1.0 for a match ratio of at least 0.85, 0.7 from 0.7, 0.4 from 0.5 and 0.2 below; hence 1.0 when every target word occurs, 0.2 when none does or there are no targets |
| AudioPlaceholders.TotalChars | scoring.py:238 | defines `sum(len(s.replace(" ", "")) for s in targets)` |
| AudioPlaceholders.Covered | scoring.py:241 | defines `any(c in s for s in targets)`: the character occurs in some target |
| AudioPlaceholders.CountCovered | scoring.py:241 | the overlap count is at most the transcript length and equals it when every character is covered |
| AudioPlaceholders.CountCoveredIsCardinality | scoring.py:241 | the overlap count is exactly the number of transcript positions holding a character that occurs in some target |
| AudioPlaceholders.OverlapRatio | scoring.py:238-242 | with target characters, the ratio is the overlap count of the space-free transcript over the space-free target character count; 0 without target characters; never negative |
| AudioPlaceholders.PronSentenceScore | scoring.py:232-251 | no transcript gives 0.5; otherwise 1.0 for an overlap ratio of at least 0.85, 0.7 from 0.7, 0.4 from 0.5 and 0.2 below; 0.2 when the targets have no non-space characters |
| AudioPlaceholders.ConcatCharsCovered | scoring.py:241 | every character of the joined targets occurs in some target |
| AudioPlaceholders.ConcatSpaceFreeLength | scoring.py:238-239 | the joined targets without spaces have exactly the total character count |
| AudioPlaceholders.ConcatFullyCovered | scoring.py:238-241 | the overlap count of the joined targets equals the total character count |
| AudioPlaceholders.VerbatimReadingFullMarks | scoring.py:232-245 | a transcript reading all target sentences verbatim scores 1.0 |
| AudioPlaceholders.OverlapRatioCanExceedOne | scoring.py:241-242 | the overlap ratio is not bounded by 1: repeating a one-character target gives 2.0 |
| Dispatch.MethodForName | scoring.py:258-264 | a missing method name resolves to no method |
| Dispatch.RegistryRoundTrip | scoring.py:258-264 | each registered method is found under its own name, and a name finds a method only if it is exactly that method's name |
| Dispatch.ApplyMethod | scoring.py:258-264 | a text heuristic gives 0.0 on blank text, an audio scorer gives 0.5 on an empty transcript, and no method exceeds 1.0 |
| Dispatch.ScoreItem | scoring.py:267-301 | unknown response types give 0.0, unregistered text methods 0.0, unregistered audio methods 0.5; with well-formed scoring the score lies in [0, 1] |
| Dispatch.SingleChoiceItemsScoreTheirRules | scoring.py:281-283 | every single-choice item scores exactly the rule-table score of its response, with nothing added or clamped |
| Dispatch.SingleChoiceItemScenario | scoring.py:281-283 | an item whose only rule is an exact match on "2" worth 0.8 scores 0.8 for the response "2" |
| Dispatch.UnclampedRuleScoreScenario | scoring.py:281-283 | an "any selection" rule worth 2.0 makes the item score 2.0: rule scores are not clamped into [0, 1] |
| Dispatch.AudioWithoutTranscriptScenario | scoring.py:293-298 | an audio item answered with no transcript scores 0.5 |
| Aggregation.WeightTotal | scoring.py:336-339 | a domain's total weight is never negative |
| Aggregation.WeightTotalZeroIff | scoring.py:336-346 | a domain's total weight is zero exactly when no item lists it with positive weight |
| Aggregation.WeightedSum | scoring.py:337 | defines the weighted sum of a domain: each item weighting it positively adds score × weight |
| Aggregation.Counts | scoring.py:336 | defines which items take part in a domain: those listing it with a positive weight |
| Aggregation.ContributionBounded | scoring.py:337-339 | an item scored in [0, 1] adds no more to the weighted sum than to the total weight |
| Aggregation.WeightedSumBounded | scoring.py:336-339 | with item scores in [0, 1], the weighted sum lies between 0 and the total weight |
| Aggregation.WeightedAverage | scoring.py:342-347 | a domain no item weights averages 0.0; otherwise average × total weight = weighted sum; in [0, 1] for scores in [0, 1] |
| Aggregation.WellFormedScoresInUnit | scoring.py:327-330 | every well-formed item scores in [0, 1] |
| Aggregation.ResponseFor | scoring.py:328 | defines `responses.get(item_id, "")`: the recorded response, or "" when there is none |
| Aggregation.ItemScores | scoring.py:327-331 | one score per item: defines the score of every item, in order, on its response or on "" when it has none |
| Aggregation.DomainScores | scoring.py:308-349 | the result has exactly the configured domains as keys, each in [0, 1] when the items are well-formed |
| Aggregation.AddItem | scoring.py:334-339 | one item adds its score × weight and its weight to exactly the configured domains it weights positively, leaving the rest unchanged |
| Aggregation.PrefixStep | scoring.py:326-339 | one more item extends the weighted sum and total weight by that item's contribution |
| Aggregation.ComputeDomainScores | scoring.py:308-349 | the accumulating loop yields, for every configured domain, exactly the weighted average of the item scores |
| Aggregation.WeightedAverageScenario | scoring.py:326-347 | two items weighted 1 and 2 with scores 1 and 0 average to 1/3 |
| Aggregation.ScoreToBand | scoring.py:352-357 | the band is that of the first band whose closed range holds the score, and 0 when none does |
| Aggregation.NonOverlappingAnyMatch | scoring.py:352-357 | in a table of pairwise disjoint ranges, any band holding the score is the one chosen |
| Aggregation.BandTableScenario | scoring.py:352-357 | a score falling in the gap between two bands (0.305 between 0.3 and 0.31) is band 0 |
| Stage.RoundHalfEven | scoring.py:395 | the rounded value is within 0.5 of the average, and even at an exact half |
| Stage.RoundHalfEvenUnique | scoring.py:395 | any integer within 0.5 that is even at a tie is the rounded value |
| Stage.RoundingTies | scoring.py:395 | 2.5 rounds to 2, 3.5 to 4 and 0.5 to 0 |
| Stage.IncludedBands | scoring.py:392 | at most one band per included domain, none exactly when no included domain has a band, and every listed value is one of the domain bands |
| Stage.IncludedBandsAppend | scoring.py:392 | the included bands of a concatenated domain list are those of the first part followed by those of the second |
| Stage.IncludedBandsSingleton | scoring.py:392 | one domain contributes exactly its band when it has one and nothing otherwise, so a domain listed twice counts twice |
| Stage.IncludedBandsWithin | scoring.py:392 | when every domain band lies in [lo, hi], so does every included band |
| Stage.SumBounds | scoring.py:394 | n bands in [lo, hi] sum to between lo × n and hi × n |
| Stage.Average | scoring.py:394 | defines `sum(included_bands) / len(included_bands)` for a non-empty list |
| Stage.AverageBounds | scoring.py:394 | the average of bands in [lo, hi] lies in [lo, hi] |
| Stage.Clamp | scoring.py:396-399 | the clamped stage lies in a non-empty stage range, is unchanged when already in it, is the minimum below the range and the maximum above a non-empty range |
| Stage.GlobalStage | scoring.py:392-401 | the stage is 0 when no included domain has a band, and otherwise lies in a non-empty configured range |
| Stage.StageWithinBandRange | scoring.py:392-399 | averaging, rounding and clamping never leave the range of the included bands |
| Stage.UnanimousBands | scoring.py:392-399 | when every included band is b (within the stage range) the stage is b |
| Stage.TiedAverageScenario | scoring.py:392-399 | bands 2 and 3 give stage 2; bands 3 and 4 give stage 4 |
| Stage.DuplicateDomainScenario | scoring.py:392-399 | with bands a = 0 and b = 3, the included list ["a", "a", "b"] gives bands [0, 0, 3] and stage 1 |
| Engine.BandsOf | scoring.py:383-386 | every domain with a raw score gets a band from the band table, and no other domain does |
| Engine.Included | scoring.py:390 | defines the included domains: the configured list, or all assessment domains by default |
| Engine.MinStage | scoring.py:397 | defines the lowest stage: the configured `min_stage`, or 0 by default |
| Engine.MaxStage | scoring.py:398 | defines the highest stage: the configured `max_stage`, or 5 by default |
| Engine.ResultsFromScores | scoring.py:383-401 | for any raw scores: the raw scores are kept, each domain gets the band of its score, the stage is 0 when no included domain has a score, and otherwise lies in a non-empty configured range |
| Engine.ComputeResults | scoring.py:360-407 | raw scores and bands are keyed by exactly the assessment's domains; raw scores lie in [0, 1] for well-formed items; the stage is 0 without an included assessment domain and otherwise in the configured range (defaults 0..5) |
| Engine.RawScoresAreDomainAverages | scoring.py:380 | each raw score is the weighted average of the item scores for that domain |
| Engine.StageWithinDomainBands | scoring.py:383-399 | for any raw scores whose bands all lie in [lo, hi] within the stage range, the global stage lies in [lo, hi] |
| Engine.UnanimousDomains | scoring.py:383-399 | for any raw scores that all land in band b within the stage range, the global stage is b |
| Levels.LevelTable | scoring.py:414-445 | the table describes exactly stages 0..5 |
| Levels.EntryFor | scoring.py:450 | defines the row used for a stage: its own row, or stage 0's for a stage outside the table |
| Levels.Describe | scoring.py:448-454 | the description is the stage's row, or stage 0's for an unknown stage; Korean for "ko" and English otherwise; a call without `lang` is `Describe(stage, "en")` |
| Levels.StageOfLevel | scoring.py:414-445 | a level name read back names a stage in 0..5 |
| Levels.LevelNameRoundTrip | scoring.py:414-454 | the level name of a described stage in 0..5 reads back as that stage, so distinct stages have distinct level names |
| Levels.UnknownStageFallsBack | scoring.py:450 | a stage outside 0..5 is described exactly as stage 0 ("Pre-SKLC") |
| Levels.UnknownLanguageFallsBack | scoring.py:453 | any language other than Korean reads the English description |
| Arith.RatioBounds | scoring.py:345 | a non-negative part over a positive whole lies in [0, 1], is 1 exactly for the whole and 0 exactly for nothing |
| Arith.Ratio | scoring.py:213 | a count over a positive count: the quotient times the whole is the part, never negative, at most 1 for a part no larger than the whole, 1 exactly for the whole and 0 exactly for nothing |
| Arith.QuotientBetween | scoring.py:394 | a quantity between lo × n and hi × n divided by positive n lies between lo and hi |

## Left out

- `load_assessment_data` (scoring.py:11-14): reading the assessment JSON is I/O. The model takes the parsed configuration as a value.
- `database.py` and `main.py` are not part of this model. They persist sessions and serve HTTP; scoring does not depend on them.
- Regular-expression matching: configured patterns are functions supplied with the params, not a regex engine. Only the default patterns are written out character by character.
- Floating point: scores, weights and thresholds are exact reals. Rounding error in sums and divisions, and IEEE `round` on values that are not exact halves, are not modelled.
- Non-string responses: the source accepts `Any`. The model takes every response as a string, and a missing response as `""`. A `None` transcript reaches the audio scorers only through `AudioPlaceholders.PronWordlistScore` and `AudioPlaceholders.PronSentenceScore`, which take an `Option`.
- Malformed configurations that Python would reject with an exception are excluded by the types. Examples are a rule without a `score`, a band entry without `min_score`, or a non-numeric weight.
- `min_content_word_count` and `min_sentences` are integers. A fractional configured value, which Python would accept and compare, is not modelled.
- Item fields the engine never reads (`item_type`, prompts, options) and the assessment title are carried or dropped without effect.
- TextHeuristics.SelfIntroCredit: the lower bound 0 is stated only for non-negative weights. A negative configured weight can make the Python score negative, and the model keeps that behaviour.
- TextHeuristics.PastRoutineCredit: same as above; only the upper bound 1.0 holds for arbitrary weights.
- AudioPlaceholders.OverlapRatio: not bounded above by 1, as `AudioPlaceholders.OverlapRatioCanExceedOne` shows. The step function caps the score.
- Dispatch.ScoreItem: the [0, 1] bound holds only for well-formed scoring. Single-choice rule scores are returned unclamped, and the self-introduction and past-routine heuristics are not clamped below.

=== FILE: aggregation.dfy ===
/**
  Domain aggregation and banding: item scores are rolled up into a weighted
  average per domain, and a domain score is mapped to a band through an
  ordered table of inclusive intervals.
 */
module Aggregation {
  import opened Types
  import Arith
  import Dispatch
  import Mcq

  // ---------------------------------------------------------------------------
  // compute_domain_scores
  // ---------------------------------------------------------------------------

  /** `responses.get(id, "")`: an unanswered item is scored on the empty string. */
  function ResponseFor(responses: map<string, string>, id: string): string {
    if id in responses then responses[id] else ""
  }

  function ItemScore(item: Item, responses: map<string, string>): real {
    Dispatch.ScoreItem(item, ResponseFor(responses, item.id))
  }

  /** The item takes part in the domain's average: it lists the domain with a
      positive weight. */
  predicate Counts(item: Item, d: string) {
    d in item.domains && item.domains[d] > 0.0
  }

  /** What one item adds to a domain's weighted sum. */
  function Contribution(item: Item, score: real, d: string): real {
    if Counts(item, d) then score * item.domains[d] else 0.0
  }

  /** The weight one item adds to a domain's total. */
  function WeightContribution(item: Item, d: string): real {
    if Counts(item, d) then item.domains[d] else 0.0
  }

  /** Total positive weight the items give to domain `d`. */
  function WeightTotal(items: seq<Item>, d: string): (w: real)
    ensures w >= 0.0
    decreases |items|
  {
    if |items| == 0 then 0.0
    else
      var last := |items| - 1;
      WeightTotal(items[..last], d) + WeightContribution(items[last], d)
  }

  /** The total weight of a domain is zero exactly when no item counts for it. */
  lemma {:induction false} WeightTotalZeroIff(items: seq<Item>, d: string)
    ensures WeightTotal(items, d) == 0.0 <==> forall i :: 0 <= i < |items| ==> !Counts(items[i], d)
    decreases |items|
  {
    if |items| > 0 {
      var last := |items| - 1;
      var init := items[..last];
      assert forall i :: 0 <= i < last ==> init[i] == items[i];
      WeightTotalZeroIff(init, d);
    }
  }

  /** Sum of score times weight over the items that count for domain `d`,
      where `scores[i]` is the score of `items[i]`. */
  function WeightedSum(items: seq<Item>, scores: seq<real>, d: string): real
    requires |scores| == |items|
    decreases |items|
  {
    if |items| == 0 then 0.0
    else
      var last := |items| - 1;
      WeightedSum(items[..last], scores[..last], d) + Contribution(items[last], scores[last], d)
  }

  /** Every score lies in [0, 1]. */
  predicate InUnit(scores: seq<real>) {
    forall i :: 0 <= i < |scores| ==> 0.0 <= scores[i] <= 1.0
  }

  lemma ScaleBounds(s: real, w: real)
    requires 0.0 <= s <= 1.0 && w > 0.0
    ensures 0.0 <= s * w <= w
  {
    assert s * w <= 1.0 * w;
  }

  /** An item scored in [0, 1] adds no more to a domain's sum than to its
      total weight. */
  lemma ContributionBounded(item: Item, score: real, d: string)
    requires 0.0 <= score <= 1.0
    ensures 0.0 <= Contribution(item, score, d) <= WeightContribution(item, d)
  {
    if Counts(item, d) {
      ScaleBounds(score, item.domains[d]);
    }
  }

  /** With item scores in [0, 1], the weighted sum lies between 0 and the
      total weight. */
  lemma {:induction false} WeightedSumBounded(items: seq<Item>, scores: seq<real>, d: string)
    requires |scores| == |items| && InUnit(scores)
    ensures 0.0 <= WeightedSum(items, scores, d) <= WeightTotal(items, d)
    decreases |items|
  {
    if |items| > 0 {
      var last := |items| - 1;
      assert InUnit(scores[..last]) by {
        assert forall i :: 0 <= i < last ==> scores[..last][i] == scores[i];
      }
      WeightedSumBounded(items[..last], scores[..last], d);
      ContributionBounded(items[last], scores[last], d);
    }
  }

  /** The weighted average for domain `d`, or 0.0 when no item counts for it. */
  function WeightedAverage(items: seq<Item>, scores: seq<real>, d: string): (r: real)
    requires |scores| == |items|
    ensures (forall i :: 0 <= i < |items| ==> !Counts(items[i], d)) ==> r == 0.0
    ensures WeightTotal(items, d) > 0.0 ==> r * WeightTotal(items, d) == WeightedSum(items, scores, d)
    ensures InUnit(scores) ==> 0.0 <= r <= 1.0
  {
    var total := WeightTotal(items, d);
    WeightTotalZeroIff(items, d);
    if total > 0.0 then
      var r := WeightedSum(items, scores, d) / total;
      if InUnit(scores) then
        WeightedSumBounded(items, scores, d);
        Arith.RatioBounds(WeightedSum(items, scores, d), total);
        r
      else r
    else 0.0
  }

  /** The score of every item on the learner's responses, in item order. */
  function ItemScores(items: seq<Item>, responses: map<string, string>): (s: seq<real>)
    ensures |s| == |items|
  {
    seq(|items|, i requires 0 <= i < |items| => ItemScore(items[i], responses))
  }

  /** Every item's scoring configuration keeps its score within [0, 1]. */
  predicate AllWellFormed(items: seq<Item>) {
    forall i :: 0 <= i < |items| ==> Dispatch.WellFormedScoring(items[i].scoring)
  }

  /** Well-formed items score within [0, 1] whatever the responses. */
  lemma WellFormedScoresInUnit(items: seq<Item>, responses: map<string, string>)
    requires AllWellFormed(items)
    ensures InUnit(ItemScores(items, responses))
  {
    var s := ItemScores(items, responses);
    forall i | 0 <= i < |items|
      ensures 0.0 <= s[i] <= 1.0
    {
      assert Dispatch.WellFormedScoring(items[i].scoring);
    }
  }

  /** The score of one domain on the learner's responses. */
  function DomainScore(items: seq<Item>, responses: map<string, string>, d: string): real {
    WeightedAverage(items, ItemScores(items, responses), d)
  }

  /** `compute_domain_scores` as a value: keyed by exactly the listed
      domains, each the weighted average of its items' scores, and in [0, 1]
      when every item's configuration is well formed. */
  function DomainScores(items: seq<Item>, responses: map<string, string>, domains: seq<string>): (r: map<string, real>)
    ensures forall d :: d in r <==> d in domains
    ensures AllWellFormed(items) ==> forall d :: d in r ==> 0.0 <= r[d] <= 1.0
  {
    var scores := ItemScores(items, responses);
    assert AllWellFormed(items) ==> InUnit(scores) by {
      if AllWellFormed(items) {
        WellFormedScoresInUnit(items, responses);
      }
    }
    map d | d in domains :: WeightedAverage(items, scores, d)
  }

  /** The inner loop of `compute_domain_scores`: walk the item's domain map
      and add into the accumulators of the listed domains it weights positively. */
  method AddItem(sums: map<string, real>, totals: map<string, real>, item: Item, score: real)
    returns (sums': map<string, real>, totals': map<string, real>)
    requires sums.Keys == totals.Keys
    ensures sums'.Keys == sums.Keys && totals'.Keys == totals.Keys
    ensures forall d :: d in sums' ==> sums'[d] == sums[d] + Contribution(item, score, d)
    ensures forall d :: d in totals' ==> totals'[d] == totals[d] + WeightContribution(item, d)
  {
    sums', totals' := sums, totals;
    var pending := item.domains.Keys;
    while pending != {}
      invariant pending <= item.domains.Keys
      invariant sums'.Keys == sums.Keys && totals'.Keys == totals.Keys
      invariant forall d :: d in sums' ==>
        sums'[d] == sums[d] + (if d in pending then 0.0 else Contribution(item, score, d))
      invariant forall d :: d in totals' ==>
        totals'[d] == totals[d] + (if d in pending then 0.0 else WeightContribution(item, d))
      decreases pending
    {
      var d :| d in pending;
      var weight := item.domains[d];
      ghost var before := sums';
      ghost var beforeTotals := totals';
      if d in sums' && weight > 0.0 {
        sums' := sums'[d := sums'[d] + score * weight];
        totals' := totals'[d := totals'[d] + weight];
      }
      pending := pending - {d};
      forall e | e in sums'
        ensures sums'[e] == sums[e] + (if e in pending then 0.0 else Contribution(item, score, e))
      {
        if e != d {
          assert sums'[e] == before[e];
        }
      }
      forall e | e in totals'
        ensures totals'[e] == totals[e] + (if e in pending then 0.0 else WeightContribution(item, e))
      {
        if e != d {
          assert totals'[e] == beforeTotals[e];
        }
      }
    }
  }

  /** Extending the items by one adds that item's contribution. */
  lemma PrefixStep(items: seq<Item>, scores: seq<real>, n: int, d: string)
    requires |scores| == |items| && 0 <= n < |items|
    ensures WeightedSum(items[..n + 1], scores[..n + 1], d)
            == WeightedSum(items[..n], scores[..n], d) + Contribution(items[n], scores[n], d)
    ensures WeightTotal(items[..n + 1], d) == WeightTotal(items[..n], d) + WeightContribution(items[n], d)
  {
    assert items[..n + 1][..n] == items[..n];
    assert scores[..n + 1][..n] == scores[..n];
  }

  /** `compute_domain_scores` as the source runs it: one pass over the items
      adding into per-domain accumulators, then one division per domain. */
  method ComputeDomainScores(items: seq<Item>, responses: map<string, string>, domains: seq<string>)
    returns (r: map<string, real>)
    ensures forall d :: d in r <==> d in domains
    ensures forall d :: d in r ==> r[d] == WeightedAverage(items, ItemScores(items, responses), d)
  {
    ghost var scores := ItemScores(items, responses);
    var sums: map<string, real> := map d | d in domains :: 0.0;
    var totals: map<string, real> := map d | d in domains :: 0.0;
    var n := 0;
    while n < |items|
      invariant 0 <= n <= |items|
      invariant forall d :: d in sums <==> d in domains
      invariant sums.Keys == totals.Keys
      invariant forall d :: d in sums ==> sums[d] == WeightedSum(items[..n], scores[..n], d)
      invariant forall d :: d in totals ==> totals[d] == WeightTotal(items[..n], d)
    {
      var item := items[n];
      var score := Dispatch.ScoreItem(item, ResponseFor(responses, item.id));
      assert score == scores[n];
      sums, totals := AddItem(sums, totals, item, score);
      forall d | d in sums
        ensures sums[d] == WeightedSum(items[..n + 1], scores[..n + 1], d)
        ensures totals[d] == WeightTotal(items[..n + 1], d)
      {
        PrefixStep(items, scores, n, d);
      }
      n := n + 1;
    }
    assert items[..n] == items;
    assert scores[..n] == scores;
    r := map d | d in domains :: if totals[d] > 0.0 then sums[d] / totals[d] else 0.0;
  }

  /** Two items in one domain with weights 1 and 2, the first answered
      correctly and the second left unanswered (scored on ""), average to 1/3. */
  lemma WeightedAverageScenario()
    ensures DomainScore(
              [ Item("g1", map["grammar" := 1.0], SingleChoice([Rule(Condition(Some("a"), None, None), 1.0)])),
                Item("g2", map["grammar" := 2.0], SingleChoice([Rule(Condition(Some("a"), None, None), 1.0)])) ],
              map["g1" := "a"], "grammar") == 1.0 / 3.0
  {
    var rules := [Rule(Condition(Some("a"), None, None), 1.0)];
    var g1 := Item("g1", map["grammar" := 1.0], SingleChoice(rules));
    var g2 := Item("g2", map["grammar" := 2.0], SingleChoice(rules));
    var responses := map["g1" := "a"];
    assert ItemScore(g1, responses) == 1.0 by {
      assert Mcq.IsFirstMatch(rules, "a", 0);
    }
    assert ItemScore(g2, responses) == 0.0;
    var items := [g1, g2];
    var scores := ItemScores(items, responses);
    assert scores == [1.0, 0.0];
    assert items[..1] == [g1] && scores[..1] == [1.0];
    assert [g1][..0] == [] && [1.0][..0] == [];
    assert Counts(g1, "grammar") && Counts(g2, "grammar");
    assert WeightTotal([g1], "grammar") == 1.0;
    assert WeightedSum([g1], [1.0], "grammar") == 1.0;
    assert WeightTotal(items, "grammar") == 3.0;
    assert WeightedSum(items, scores, "grammar") == 1.0;
  }

  // ---------------------------------------------------------------------------
  // score_to_band
  // ---------------------------------------------------------------------------

  /** The inclusive interval of a band definition contains the score. */
  predicate InBand(score: real, b: BandDef) {
    b.minScore <= score <= b.maxScore
  }

  /** Band `i` is the first definition, in table order, containing the score. */
  predicate IsFirstBand(bands: seq<BandDef>, score: real, i: int) {
    && 0 <= i < |bands|
    && InBand(score, bands[i])
    && forall j :: 0 <= j < i ==> !InBand(score, bands[j])
  }

  /** `score_to_band`: the band of the first interval containing the score,
      or 0 when none does. */
  function ScoreToBand(score: real, bands: seq<BandDef>): (r: int)
    ensures forall i :: IsFirstBand(bands, score, i) ==> r == bands[i].band
    ensures (forall i :: 0 <= i < |bands| ==> !InBand(score, bands[i])) ==> r == 0
  {
    if |bands| == 0 then 0
    else if InBand(score, bands[0]) then bands[0].band
    else
      var r := ScoreToBand(score, bands[1..]);
      assert forall i :: IsFirstBand(bands, score, i) ==> IsFirstBand(bands[1..], score, i - 1);
      r
  }

  /** No two intervals of the table share a score. */
  predicate NonOverlapping(bands: seq<BandDef>) {
    forall i, j :: 0 <= i < j < |bands| ==>
      bands[i].maxScore < bands[j].minScore || bands[j].maxScore < bands[i].minScore
  }

  /** For a table whose intervals do not overlap, first-match is the same as
      any-match: the result is the band of whichever interval holds the score. */
  lemma {:induction false} NonOverlappingAnyMatch(score: real, bands: seq<BandDef>, i: int)
    requires NonOverlapping(bands)
    requires 0 <= i < |bands| && InBand(score, bands[i])
    ensures ScoreToBand(score, bands) == bands[i].band
  {
    if i > 0 {
      assert !InBand(score, bands[0]) by {
        assert bands[0].maxScore < bands[i].minScore || bands[i].maxScore < bands[0].minScore;
      }
      var tail := bands[1..];
      assert NonOverlapping(tail) by {
        forall a, b | 0 <= a < b < |tail|
          ensures tail[a].maxScore < tail[b].minScore || tail[b].maxScore < tail[a].minScore
        {
          assert tail[a] == bands[a + 1] && tail[b] == bands[b + 1];
        }
      }
      assert tail[i - 1] == bands[i];
      NonOverlappingAnyMatch(score, tail, i - 1);
    }
  }

  /** For example, with the table 0:[0, 0.3], 1:[0.31, 0.6], 2:[0.61, 1.0],
      0.5 and the boundary 0.31 both fall in band 1, and 0.305, in the gap,
      falls back to 0. */
  lemma BandTableScenario()
    ensures var t := [BandDef(0, 0.0, 0.3), BandDef(1, 0.31, 0.6), BandDef(2, 0.61, 1.0)];
            ScoreToBand(0.5, t) == 1 && ScoreToBand(0.31, t) == 1 && ScoreToBand(0.305, t) == 0
  {
    var t := [BandDef(0, 0.0, 0.3), BandDef(1, 0.31, 0.6), BandDef(2, 0.61, 1.0)];
    assert IsFirstBand(t, 0.5, 1);
    assert IsFirstBand(t, 0.31, 1);
  }
}

=== FILE: arith.dfy ===
/**
  Facts about real quotients shared by the ratio-based scorers and the
  weighted domain average.
 */
module Arith {

  /** A quotient of a non-negative part by a positive whole lies in [0, 1],
      equals 1 exactly when the part is the whole and 0 exactly when the
      part is 0. */
  lemma RatioBounds(part: real, whole: real)
    requires 0.0 <= part <= whole && whole > 0.0
    ensures 0.0 <= part / whole <= 1.0
    ensures part / whole == 1.0 <==> part == whole
    ensures part / whole == 0.0 <==> part == 0.0
  {
    var q := part / whole;
    assert q * whole == part;
  }

  /** A quantity between `lo * n` and `hi * n` divided by a positive `n`
      lies between `lo` and `hi`. */
  lemma QuotientBetween(s: real, n: real, lo: real, hi: real)
    requires n > 0.0 && lo * n <= s <= hi * n
    ensures lo <= s / n <= hi
  {
    var q := s / n;
    assert q * n == s;
    assert (q - lo) * n == s - lo * n;
    assert (hi - q) * n == hi * n - s;
  }

  /** `part / whole` for counts with a positive whole: the quotient times
      the whole is the part, so it is never negative, is at most 1 when the
      part is at most the whole, and is 1 or 0 exactly for the whole or
      nothing. */
  function Ratio(part: nat, whole: nat): (q: real)
    requires whole > 0
    ensures q * whole as real == part as real
    ensures q == part as real / whole as real
    ensures 0.0 <= q
    ensures part <= whole ==> q <= 1.0
    ensures q == 1.0 <==> part == whole
    ensures q == 0.0 <==> part == 0
  {
    var q := part as real / whole as real;
    assert q * whole as real == part as real;
    assert (part <= whole ==> q <= 1.0) && (q == 1.0 <==> part == whole) && (q == 0.0 <==> part == 0) by {
      if part <= whole {
        RatioBounds(part as real, whole as real);
      } else {
        assert (q - 1.0) * whole as real == (part - whole) as real;
      }
    }
    q
  }
}

=== FILE: audio.dfy ===
/**
  The two placeholder pronunciation scorers. Both work on a transcript
  produced upstream (or absent), compute a crude overlap ratio against the
  target material and map it through one fixed step function. They stand in
  for a real phoneme/word error rate and are modelled as the placeholders
  they are.
 */
module AudioPlaceholders {
  import opened Types
  import opened Lexical
  import Arith

  /** `not audio_transcript`: no transcript, or an empty one. */
  predicate NoTranscript(transcript: Option<string>) {
    transcript.None? || transcript.value == ""
  }

  /** The score given when there is no transcript to grade. */
  const UngradedScore: real := 0.5

  /** One of the four step values a graded transcript can receive. */
  predicate IsStepValue(r: real) {
    r == 1.0 || r == 0.7 || r == 0.4 || r == 0.2
  }

  /** The fixed step function: >= 0.85 gives 1.0, >= 0.7 gives 0.7,
      >= 0.5 gives 0.4, anything lower 0.2. */
  function Step(ratio: real): (r: real)
    ensures IsStepValue(r)
  {
    if ratio >= 0.85 then 1.0
    else if ratio >= 0.7 then 0.7
    else if ratio >= 0.5 then 0.4
    else 0.2
  }

  /** A better ratio never receives a lower step. */
  lemma StepMonotone(a: real, b: real)
    requires a <= b
    ensures Step(a) <= Step(b)
  {
  }

  /** Each step value is reached exactly on its ratio interval. */
  lemma StepIntervals(ratio: real)
    ensures Step(ratio) == 1.0 <==> ratio >= 0.85
    ensures Step(ratio) == 0.7 <==> 0.7 <= ratio < 0.85
    ensures Step(ratio) == 0.4 <==> 0.5 <= ratio < 0.7
    ensures Step(ratio) == 0.2 <==> ratio < 0.5
  {
  }

  // ---------------------------------------------------------------------------
  // asr_pron_wordlist_v1
  // ---------------------------------------------------------------------------

  /** The share of target words found in the transcript; 0 for no targets. */
  function WordMatchRatio(targets: seq<string>, transcript: string): (ratio: real)
    ensures |targets| > 0 ==> ratio == CountPresent(targets, transcript) as real / |targets| as real
    ensures |targets| == 0 ==> ratio == 0.0
    ensures 0.0 <= ratio <= 1.0
    ensures |targets| > 0 ==> (ratio == 1.0 <==> forall k :: 0 <= k < |targets| ==> Contains(transcript, targets[k]))
    ensures |targets| > 0 ==> (ratio == 0.0 <==> forall k :: 0 <= k < |targets| ==> !Contains(transcript, targets[k]))
  {
    if |targets| == 0 then 0.0
    else
      Arith.Ratio(CountPresent(targets, transcript), |targets|)
  }

  /** `asr_pron_wordlist_v1`: 0.5 without a transcript; otherwise a step value,
      full marks when every target word occurs, 0.2 when none does or when
      there are no target words. */
  function PronWordlistScore(transcript: Option<string>, p: Params): (r: real)
    ensures NoTranscript(transcript) ==> r == UngradedScore
    ensures !NoTranscript(transcript) ==> IsStepValue(r)
    ensures !NoTranscript(transcript) && WordMatchRatio(p.targetWords, transcript.value) >= 0.85 ==> r == 1.0
    ensures !NoTranscript(transcript) && 0.7 <= WordMatchRatio(p.targetWords, transcript.value) < 0.85 ==> r == 0.7
    ensures !NoTranscript(transcript) && 0.5 <= WordMatchRatio(p.targetWords, transcript.value) < 0.7 ==> r == 0.4
    ensures !NoTranscript(transcript) && WordMatchRatio(p.targetWords, transcript.value) < 0.5 ==> r == 0.2
    ensures !NoTranscript(transcript) && |p.targetWords| == 0 ==> r == 0.2
    ensures !NoTranscript(transcript) && |p.targetWords| > 0
            && (forall k :: 0 <= k < |p.targetWords| ==> Contains(transcript.value, p.targetWords[k]))
            ==> r == 1.0
    ensures !NoTranscript(transcript)
            && (forall k :: 0 <= k < |p.targetWords| ==> !Contains(transcript.value, p.targetWords[k]))
            ==> r == 0.2
  {
    if NoTranscript(transcript) then UngradedScore
    else Step(WordMatchRatio(p.targetWords, transcript.value))
  }

  // ---------------------------------------------------------------------------
  // asr_pron_sentence_v1
  // ---------------------------------------------------------------------------

  /** `sum(len(s.replace(" ", "")) for s in targets)`. */
  function TotalChars(targets: seq<string>): nat {
    if |targets| == 0 then 0 else |RemoveSpaces(targets[0])| + TotalChars(targets[1..])
  }

  /** `any(c in s for s in targets)`. */
  predicate Covered(c: char, targets: seq<string>) {
    exists k :: 0 <= k < |targets| && c in targets[k]
  }

  /** The positions of `x` holding a character that occurs in some target. */
  ghost function CoveredIndices(x: string, targets: seq<string>): set<int> {
    set i | 0 <= i < |x| && Covered(x[i], targets)
  }

  /** The covered positions split into the first character and the rest, shifted. */
  lemma CoveredIndicesFront(x: string, targets: seq<string>)
    requires |x| > 0
    ensures |CoveredIndices(x, targets)| == (if Covered(x[0], targets) then 1 else 0) + |CoveredIndices(x[1..], targets)|
  {
    var bs := seq(|x|, i requires 0 <= i < |x| => Covered(x[i], targets));
    assert CoveredIndices(x, targets) == TrueIndices(bs);
    assert CoveredIndices(x[1..], targets) == TrueIndices(bs[1..]);
    TrueIndicesFront(bs);
  }

  /** The number of characters of `x` that occur in some target. */
  function CountCovered(x: string, targets: seq<string>): (n: nat)
    ensures n <= |x|
    ensures (forall i :: 0 <= i < |x| ==> Covered(x[i], targets)) ==> n == |x|
  {
    if |x| == 0 then 0
    else (if Covered(x[0], targets) then 1 else 0) + CountCovered(x[1..], targets)
  }

  /** The count is exactly the number of covered positions of `x`. */
  lemma {:induction false} CountCoveredIsCardinality(x: string, targets: seq<string>)
    ensures CountCovered(x, targets) == |CoveredIndices(x, targets)|
    decreases |x|
  {
    if |x| == 0 {
      assert CoveredIndices(x, targets) == {};
    } else {
      CountCoveredIsCardinality(x[1..], targets);
      CoveredIndicesFront(x, targets);
    }
  }

  /** Covered characters of the space-free transcript per space-free target
      character; 0 when the targets hold no such character. It is not bounded
      by 1: a transcript may repeat covered characters. */
  function OverlapRatio(targets: seq<string>, transcript: string): (ratio: real)
    ensures TotalChars(targets) > 0
            ==> ratio == CountCovered(RemoveSpaces(transcript), targets) as real / TotalChars(targets) as real
    ensures 0.0 <= ratio
    ensures TotalChars(targets) == 0 ==> ratio == 0.0
  {
    var total := TotalChars(targets);
    if total > 0 then
      Arith.Ratio(CountCovered(RemoveSpaces(transcript), targets), total)
    else 0.0
  }

  /** `asr_pron_sentence_v1`: 0.5 without a transcript; otherwise a step value,
      and 0.2 when the targets hold no non-space character. */
  function PronSentenceScore(transcript: Option<string>, p: Params): (r: real)
    ensures NoTranscript(transcript) ==> r == UngradedScore
    ensures !NoTranscript(transcript) ==> IsStepValue(r)
    ensures !NoTranscript(transcript) && OverlapRatio(p.targetSentences, transcript.value) >= 0.85 ==> r == 1.0
    ensures !NoTranscript(transcript) && 0.7 <= OverlapRatio(p.targetSentences, transcript.value) < 0.85 ==> r == 0.7
    ensures !NoTranscript(transcript) && 0.5 <= OverlapRatio(p.targetSentences, transcript.value) < 0.7 ==> r == 0.4
    ensures !NoTranscript(transcript) && OverlapRatio(p.targetSentences, transcript.value) < 0.5 ==> r == 0.2
    ensures !NoTranscript(transcript) && TotalChars(p.targetSentences) == 0 ==> r == 0.2
  {
    if NoTranscript(transcript) then UngradedScore
    else Step(OverlapRatio(p.targetSentences, transcript.value))
  }

  /** The target sentences run together. */
  function Concat(ss: seq<string>): string {
    if |ss| == 0 then "" else ss[0] + Concat(ss[1..])
  }

  /** Every character of the joined targets occurs in some target. */
  lemma {:induction false} ConcatCharsCovered(ss: seq<string>, c: char)
    requires c in Concat(ss)
    ensures Covered(c, ss)
  {
    if c in ss[0] {
      assert 0 <= 0 < |ss| && c in ss[0];
    } else {
      assert c in Concat(ss[1..]);
      ConcatCharsCovered(ss[1..], c);
      var k :| 0 <= k < |ss[1..]| && c in ss[1..][k];
      assert c in ss[k + 1];
    }
  }

  /** Dropping the spaces of the joined targets leaves `TotalChars` characters. */
  lemma {:induction false} ConcatSpaceFreeLength(ss: seq<string>)
    ensures |RemoveSpaces(Concat(ss))| == TotalChars(ss)
  {
    if |ss| > 0 {
      RemoveSpacesAppend(ss[0], Concat(ss[1..]));
      ConcatSpaceFreeLength(ss[1..]);
    }
  }

  /** Every space-free character of the joined targets is covered, so the
      overlap count of the joined targets is exactly `TotalChars`. */
  lemma ConcatFullyCovered(ss: seq<string>)
    ensures CountCovered(RemoveSpaces(Concat(ss)), ss) == TotalChars(ss)
  {
    var clean := RemoveSpaces(Concat(ss));
    ConcatSpaceFreeLength(ss);
    forall i | 0 <= i < |clean|
      ensures Covered(clean[i], ss)
    {
      ConcatCharsCovered(ss, clean[i]);
    }
  }

  /** Reading the targets verbatim earns full marks. */
  lemma VerbatimReadingFullMarks(p: Params)
    requires TotalChars(p.targetSentences) > 0
    ensures PronSentenceScore(Some(Concat(p.targetSentences)), p) == 1.0
  {
    var ss := p.targetSentences;
    ConcatFullyCovered(ss);
    ConcatSpaceFreeLength(ss);
    assert Concat(ss) != "";
    var total := TotalChars(ss) as real;
    assert OverlapRatio(ss, Concat(ss)) == total / total == 1.0;
    assert !NoTranscript(Some(Concat(ss)));
  }

  /** The overlap ratio can exceed 1: a transcript repeating a one-character
      target counts each repetition against a single target character. */
  lemma OverlapRatioCanExceedOne()
    ensures OverlapRatio(["가"], "가가") == 2.0
  {
    assert "가"[0] == '가' && ["가"][0] == "가";
    assert Covered('가', ["가"]);
    assert RemoveSpaces("가가") == "가가";
    assert TotalChars(["가"]) == 1 by {
      assert RemoveSpaces("가") == "가";
    }
  }
}

=== FILE: dispatch.dfy ===
/**
  The item scorer: the registry of named scoring methods and `score_item`,
  which dispatches on an item's response type.
 */
module Dispatch {
  import opened Types
  import opened Lexical
  import Mcq
  import TextHeuristics
  import AudioPlaceholders

  /** The name under which each registered method appears in `SCORING_METHODS`. */
  function RegisteredName(m: ScoringMethod): string
    requires m != Unregistered
  {
    match m
    case SelfIntroV1 => "heuristic_self_intro_v1"
    case PastRoutineV1 => "heuristic_past_routine_v1"
    case PoliteRewriteV1 => "heuristic_professor_polite_rewrite_v1"
    case PronWordlistV1 => "asr_pron_wordlist_v1"
    case PronSentenceV1 => "asr_pron_sentence_v1"
  }

  /** `SCORING_METHODS.get(scoring.get("method"))`: a missing or unknown
      name resolves to `Unregistered`. */
  function MethodForName(name: Option<string>): (m: ScoringMethod)
    ensures name.None? ==> m == Unregistered
  {
    match name
    case None => Unregistered
    case Some(n) =>
      if n == "heuristic_self_intro_v1" then SelfIntroV1
      else if n == "heuristic_past_routine_v1" then PastRoutineV1
      else if n == "heuristic_professor_polite_rewrite_v1" then PoliteRewriteV1
      else if n == "asr_pron_wordlist_v1" then PronWordlistV1
      else if n == "asr_pron_sentence_v1" then PronSentenceV1
      else Unregistered
  }

  /** Looking up a registered method's own name finds that method, and a
      lookup succeeds only for exactly a registered name. */
  lemma RegistryRoundTrip(m: ScoringMethod, n: string)
    ensures m != Unregistered ==> MethodForName(Some(RegisteredName(m))) == m
    ensures MethodForName(Some(n)) != Unregistered ==> RegisteredName(MethodForName(Some(n))) == n
  {
  }

  /** The methods that read free text. */
  predicate IsTextHeuristic(m: ScoringMethod) {
    m == SelfIntroV1 || m == PastRoutineV1 || m == PoliteRewriteV1
  }

  /** The methods that read a transcript. */
  predicate IsAudioScorer(m: ScoringMethod) {
    m == PronWordlistV1 || m == PronSentenceV1
  }

  /** Calling a registered method on a response. Audio scorers receive the
      response as a present (possibly empty) transcript. */
  function ApplyMethod(m: ScoringMethod, p: Params, response: string): (r: real)
    requires m != Unregistered
    ensures IsTextHeuristic(m) && IsBlank(response) ==> r == 0.0
    ensures IsAudioScorer(m) && response == "" ==> r == AudioPlaceholders.UngradedScore
    ensures r <= 1.0
    ensures (m == PoliteRewriteV1 || IsAudioScorer(m) || NonNegativeWeights(p)) ==> 0.0 <= r
  {
    match m
    case SelfIntroV1 => TextHeuristics.SelfIntroScore(response, p)
    case PastRoutineV1 => TextHeuristics.PastRoutineScore(response, p)
    case PoliteRewriteV1 => TextHeuristics.PoliteRewriteScore(response, p)
    case PronWordlistV1 => AudioPlaceholders.PronWordlistScore(Some(response), p)
    case PronSentenceV1 => AudioPlaceholders.PronSentenceScore(Some(response), p)
  }

  /** The named method of a text or audio item; `Unregistered` otherwise. */
  function MethodOf(s: Scoring): ScoringMethod {
    if s.TextResponse? || s.AudioResponse? then s.scorer else Unregistered
  }

  /** The configuration under which an item's score is guaranteed to lie in
      [0, 1]: rule scores in [0, 1] for single choice (they are not clamped)
      and non-negative weights for the two heuristics that only cap above. */
  predicate WellFormedScoring(s: Scoring) {
    match s
    case SingleChoice(rules) => Mcq.RuleScoresInUnit(rules)
    case TextResponse(m, p) => (m == SelfIntroV1 || m == PastRoutineV1) ==> NonNegativeWeights(p)
    case AudioResponse(m, p) => (m == SelfIntroV1 || m == PastRoutineV1) ==> NonNegativeWeights(p)
    case UnknownResponseType => true
  }

  /** `score_item`. Single-choice items go to the rule table; text and audio
      items go to their registered method, and an unregistered method gives
      0.0 for text but the ungraded 0.5 for audio; an unknown or missing
      response type gives 0.0. */
  function ScoreItem(item: Item, response: string): (r: real)
    ensures item.scoring.UnknownResponseType? ==> r == 0.0
    ensures item.scoring.TextResponse? && item.scoring.scorer == Unregistered ==> r == 0.0
    ensures item.scoring.AudioResponse? && item.scoring.scorer == Unregistered ==> r == AudioPlaceholders.UngradedScore
    ensures IsTextHeuristic(MethodOf(item.scoring)) && IsBlank(response) ==> r == 0.0
    ensures IsAudioScorer(MethodOf(item.scoring)) && response == "" ==> r == AudioPlaceholders.UngradedScore
    ensures WellFormedScoring(item.scoring) ==> 0.0 <= r <= 1.0
  {
    match item.scoring
    case SingleChoice(rules) => Mcq.ScoreMcqSingle(response, rules)
    case TextResponse(m, p) => if m == Unregistered then 0.0 else ApplyMethod(m, p, response)
    case AudioResponse(m, p) => if m == Unregistered then AudioPlaceholders.UngradedScore else ApplyMethod(m, p, response)
    case UnknownResponseType => 0.0
  }

  /** A single-choice item scores its first matching rule. */
  lemma SingleChoiceItemScenario()
    ensures ScoreItem(Item("p1", map[], SingleChoice([Rule(Condition(Some("2"), None, None), 0.8)])), "2") == 0.8
  {
    Mcq.ExactSelectionScenario();
  }

  /** Every single-choice item scores exactly what its rule table gives the
      response: `score_item` hands it to `score_mcq_single` unchanged. */
  lemma SingleChoiceItemsScoreTheirRules(item: Item, response: string)
    requires item.scoring.SingleChoice?
    ensures ScoreItem(item, response) == Mcq.ScoreMcqSingle(response, item.scoring.rules)
  {
  }

  /** Rule scores are not clamped: an "any selection" rule worth 2.0 makes
      the item score 2.0. */
  lemma UnclampedRuleScoreScenario()
    ensures ScoreItem(Item("q", map[], SingleChoice([Rule(Condition(None, Some(true), None), 2.0)])), "x") == 2.0
  {
  }

  /** An audio item answered with no transcript gets 0.5, never 0.0. */
  lemma AudioWithoutTranscriptScenario(m: ScoringMethod, p: Params)
    requires IsAudioScorer(m)
    ensures ScoreItem(Item("a1", map[], AudioResponse(m, p)), "") == 0.5
  {
  }
}

=== FILE: engine.dfy ===
/**
  `compute_results`: raw domain scores, one band per domain and the global
  stage, with the stage configuration's defaults resolved.
 */
module Engine {
  import opened Types
  import Aggregation
  import Stage

  /** The domains averaged into the global stage; all domains by default. */
  function Included(a: Assessment): seq<string> {
    a.stage.includedDomains.GetOr(a.domains)
  }

  /** The lowest global stage; 0 by default. */
  function MinStage(a: Assessment): int {
    a.stage.minStage.GetOr(0)
  }

  /** The highest global stage; 5 by default. */
  function MaxStage(a: Assessment): int {
    a.stage.maxStage.GetOr(5)
  }

  /** No included domain is one of the assessment's domains. */
  predicate NoIncludedDomain(a: Assessment) {
    forall k :: 0 <= k < |Included(a)| ==> Included(a)[k] !in a.domains
  }

  /** Each domain's band, read from the band table. */
  function BandsOf(raw: map<string, real>, table: seq<BandDef>): (bands: map<string, int>)
    ensures bands.Keys == raw.Keys
    ensures forall d :: d in bands ==> bands[d] == Aggregation.ScoreToBand(raw[d], table)
  {
    map d | d in raw :: Aggregation.ScoreToBand(raw[d], table)
  }

  /** The second half of `compute_results`: bands from the raw domain
      scores, then the global stage from the bands. */
  function ResultsFromScores(a: Assessment, raw: map<string, real>): (r: Results)
    ensures r.domainRawScores == raw
    ensures r.domainBands.Keys == raw.Keys
    ensures forall d :: d in r.domainBands ==> r.domainBands[d] == Aggregation.ScoreToBand(raw[d], a.bands)
    ensures (forall k :: 0 <= k < |Included(a)| ==> Included(a)[k] !in raw) ==> r.globalStage == 0
    ensures (exists k :: 0 <= k < |Included(a)| && Included(a)[k] in raw) && MinStage(a) <= MaxStage(a)
            ==> MinStage(a) <= r.globalStage <= MaxStage(a)
  {
    var bands := BandsOf(raw, a.bands);
    Results(raw, bands, Stage.GlobalStage(bands, Included(a), MinStage(a), MaxStage(a)))
  }

  /** `compute_results`. Both maps are keyed by exactly the assessment's
      domains; with well-formed items every raw score lies in [0, 1]; the
      global stage is 0 when no included domain is an assessment domain and
      otherwise lies in the configured stage range (when that range is not
      empty). */
  function ComputeResults(a: Assessment, responses: map<string, string>): (r: Results)
    ensures forall d :: d in r.domainRawScores <==> d in a.domains
    ensures r.domainBands.Keys == r.domainRawScores.Keys
    ensures forall d :: d in r.domainBands ==> r.domainBands[d] == Aggregation.ScoreToBand(r.domainRawScores[d], a.bands)
    ensures Aggregation.AllWellFormed(a.items) ==> forall d :: d in r.domainRawScores ==> 0.0 <= r.domainRawScores[d] <= 1.0
    ensures NoIncludedDomain(a) ==> r.globalStage == 0
    ensures !NoIncludedDomain(a) && MinStage(a) <= MaxStage(a) ==> MinStage(a) <= r.globalStage <= MaxStage(a)
  {
    ResultsFromScores(a, Aggregation.DomainScores(a.items, responses, a.domains))
  }

  /** Each raw score is the weighted average of the item scores for its
      domain, which is what the accumulating loop computes as well. */
  lemma RawScoresAreDomainAverages(a: Assessment, responses: map<string, string>, d: string)
    requires d in a.domains
    ensures ComputeResults(a, responses).domainRawScores[d]
            == Aggregation.WeightedAverage(a.items, Aggregation.ItemScores(a.items, responses), d)
  {
  }

  /** When every domain band lies in [lo, hi] and that range lies in the
      configured stage range, the global stage lies in [lo, hi]: averaging,
      rounding and clamping never leave the range of the bands. */
  lemma StageWithinDomainBands(a: Assessment, raw: map<string, real>, lo: int, hi: int)
    requires exists k :: 0 <= k < |Included(a)| && Included(a)[k] in raw
    requires forall d :: d in raw ==> lo <= Aggregation.ScoreToBand(raw[d], a.bands) <= hi
    requires MinStage(a) <= lo && hi <= MaxStage(a)
    ensures lo <= ResultsFromScores(a, raw).globalStage <= hi
  {
    var bands := BandsOf(raw, a.bands);
    Stage.IncludedBandsWithin(bands, Included(a), lo, hi);
    Stage.StageWithinBandRange(bands, Included(a), MinStage(a), MaxStage(a), lo, hi);
  }

  /** When every domain lands in the same band `b` within the stage range,
      the global stage is `b`. */
  lemma UnanimousDomains(a: Assessment, raw: map<string, real>, b: int)
    requires exists k :: 0 <= k < |Included(a)| && Included(a)[k] in raw
    requires forall d :: d in raw ==> Aggregation.ScoreToBand(raw[d], a.bands) == b
    requires MinStage(a) <= b <= MaxStage(a)
    ensures ResultsFromScores(a, raw).globalStage == b
  {
    StageWithinDomainBands(a, raw, b, b);
  }
}

=== FILE: heuristics.dfy ===
/**
  The three lexicon/pattern text heuristics. Each reads a few features of the
  text (sentence count, lexicon hits, pattern matches), turns each feature
  into weighted partial credit and caps the sum. Weights, lexicons and
  patterns come from the item's `params`, with the source's defaults for
  absent keys.
 */
module TextHeuristics {
  import opened Types
  import opened Lexical

  /** Graded credit for a count: the full weight at or above `full`, the
      fraction `partial` of it for at least one hit, nothing otherwise. */
  function Tier(count: int, full: int, w: real, partial: real): real {
    if count >= full then w
    else if count >= 1 then w * partial
    else 0.0
  }

  /** A higher count never earns less graded credit. */
  lemma TierMonotone(c1: int, c2: int, full: int, w: real, partial: real)
    requires c1 <= c2 && w >= 0.0 && 0.0 <= partial <= 1.0
    ensures 0.0 <= Tier(c1, full, w, partial) <= Tier(c2, full, w, partial) <= w
  {
    MulMonotone(w, 0.0, partial);
    MulMonotone(w, partial, 1.0);
    if c1 >= full {
      assert Tier(c2, full, w, partial) == w;
    } else if c1 >= 1 {
      assert Tier(c1, full, w, partial) == w * partial;
      assert w * partial <= w;
      if c2 >= full {
        assert Tier(c2, full, w, partial) == w;
      } else {
        assert c2 >= 1;
        assert Tier(c2, full, w, partial) == w * partial;
      }
    }
  }

  function Min(x: real, y: real): real {
    if x <= y then x else y
  }

  function Max(x: real, y: real): real {
    if x >= y then x else y
  }

  // ---------------------------------------------------------------------------
  // heuristic_self_intro_v1
  // ---------------------------------------------------------------------------

  /** What the self-introduction heuristic observes in a text. */
  datatype SelfIntroFeatures = SelfIntroFeatures(sentences: nat, verbHits: nat, topicHits: nat, length: nat)

  function SelfIntroFeaturesOf(text: string, p: Params): SelfIntroFeatures {
    SelfIntroFeatures(
      CountSentences(text),
      CountPresent(Lexicon(p, "basic_verbs", []), text),
      CountPresent(Lexicon(p, "topic_or_hobby", []), text),
      |text|)
  }

  /** The capped credit for observed features: sentences (half credit below
      `min_sentences`, default 2), basic verbs and topic words (full at two
      hits, half at one) and a fixed 0.2 bonus for a text over 50 characters
      that reaches `min_sentences`. */
  function SelfIntroCredit(f: SelfIntroFeatures, p: Params): (r: real)
    ensures r <= 1.0
    ensures NonNegativeWeights(p) ==> 0.0 <= r
  {
    var minSentences := p.minSentences.GetOr(2);
    var raw :=
      Tier(f.sentences, minSentences, Weight(p, "sentences", 0.3), 0.5)
      + Tier(f.verbHits, 2, Weight(p, "basic_verbs", 0.3), 0.5)
      + Tier(f.topicHits, 2, Weight(p, "topic_or_hobby", 0.2), 0.5)
      + (if f.length > 50 && f.sentences >= minSentences then 0.2 else 0.0);
    Min(raw, 1.0)
  }

  /** `heuristic_self_intro_v1`. */
  function SelfIntroScore(text: string, p: Params): (r: real)
    ensures IsBlank(text) ==> r == 0.0
    ensures r <= 1.0
    ensures NonNegativeWeights(p) ==> 0.0 <= r
  {
    if IsBlank(text) then 0.0 else SelfIntroCredit(SelfIntroFeaturesOf(text, p), p)
  }

  /** More sentences, more lexicon hits or a longer text never lower the score. */
  lemma SelfIntroMonotone(f1: SelfIntroFeatures, f2: SelfIntroFeatures, p: Params)
    requires NonNegativeWeights(p)
    requires f1.sentences <= f2.sentences && f1.verbHits <= f2.verbHits
    requires f1.topicHits <= f2.topicHits && f1.length <= f2.length
    ensures SelfIntroCredit(f1, p) <= SelfIntroCredit(f2, p)
  {
    var minSentences := p.minSentences.GetOr(2);
    TierMonotone(f1.sentences, f2.sentences, minSentences, Weight(p, "sentences", 0.3), 0.5);
    TierMonotone(f1.verbHits, f2.verbHits, 2, Weight(p, "basic_verbs", 0.3), 0.5);
    TierMonotone(f1.topicHits, f2.topicHits, 2, Weight(p, "topic_or_hobby", 0.2), 0.5);
  }

  /** For example, with weights 0.3/0.3/0.2 and two required sentences,
      a text of at most 50 characters with two sentences, two basic verbs and
      no topic word scores 0.3 + 0.3 = 0.6 (no length bonus). */
  lemma SelfIntroWorkedExample(text: string, p: Params)
    requires p.weights == map["sentences" := 0.3, "basic_verbs" := 0.3, "topic_or_hobby" := 0.2]
    requires p.minSentences == Some(2)
    requires CountSentences(text) == 2
    requires CountPresent(Lexicon(p, "basic_verbs", []), text) == 2
    requires CountPresent(Lexicon(p, "topic_or_hobby", []), text) == 0
    requires |text| <= 50
    ensures SelfIntroScore(text, p) == 0.6
  {
    assert Weight(p, "sentences", 0.3) == 0.3;
    assert Weight(p, "basic_verbs", 0.3) == 0.3;
    assert Weight(p, "topic_or_hobby", 0.2) == 0.2;
    assert SelfIntroFeaturesOf(text, p) == SelfIntroFeatures(2, 2, 0, |text|);
  }

  /** With the default weights, a long text that satisfies every criterion
      reaches exactly full marks. */
  lemma SelfIntroFullMarks(text: string, p: Params)
    requires p.weights == map[] && p.minSentences == None
    requires CountSentences(text) >= 2
    requires CountPresent(Lexicon(p, "basic_verbs", []), text) >= 2
    requires CountPresent(Lexicon(p, "topic_or_hobby", []), text) >= 2
    requires |text| > 50
    ensures SelfIntroScore(text, p) == 1.0
  {
  }

  // ---------------------------------------------------------------------------
  // heuristic_past_routine_v1
  // ---------------------------------------------------------------------------

  /** The source's default past-tense pattern `(았|었|했)`: the number of
      occurrences of any of the three past-tense syllables. */
  function DefaultPastTenseCount(t: string): nat {
    if |t| == 0 then 0
    else (if t[0] == '았' || t[0] == '었' || t[0] == '했' then 1 else 0) + DefaultPastTenseCount(t[1..])
  }

  /** What the past-routine heuristic observes in a text. */
  datatype PastRoutineFeatures = PastRoutineFeatures(sentences: nat, pastHits: nat, contentHits: nat)

  function PastRoutineFeaturesOf(text: string, p: Params): PastRoutineFeatures {
    var pastTense := p.pastTenseRegex.GetOr(DefaultPastTenseCount);
    PastRoutineFeatures(
      CountSentences(text),
      pastTense(text),
      CountPresent(Lexicon(p, "content_words", []), text))
  }

  /** Credit for content words: the full weight at `minContent` hits, and
      below that a share proportional to the hits. */
  function ContentCredit(hits: nat, minContent: int, w: real): (r: real)
    ensures 1 <= hits < minContent ==> r * (minContent as real) == w * (hits as real)
    ensures w >= 0.0 ==> 0.0 <= r <= w
    ensures hits >= minContent ==> r == w
    ensures hits == 0 && minContent > 0 ==> r == 0.0
  {
    if hits >= minContent then w
    else if hits >= 1 then w * (hits as real / minContent as real)
    else 0.0
  }

  /** More content hits never earn less content credit. */
  lemma ContentCreditMonotone(h1: nat, h2: nat, minContent: int, w: real)
    requires h1 <= h2 && w >= 0.0
    ensures ContentCredit(h1, minContent, w) <= ContentCredit(h2, minContent, w)
  {
    if 1 <= h1 && h2 < minContent {
      var m := minContent as real;
      assert h1 as real / m <= h2 as real / m;
      MulMonotone(w, h1 as real / m, h2 as real / m);
    }
  }

  lemma MulMonotone(w: real, a: real, b: real)
    requires w >= 0.0 && a <= b
    ensures w * a <= w * b
  {
  }

  /** The capped credit: sentences (half credit below `min_sentences`), past
      tense (full at two matches, 0.6 of the weight at one) and content words
      (proportional below `min_content_word_count`, default 3). */
  function PastRoutineCredit(f: PastRoutineFeatures, p: Params): (r: real)
    ensures r <= 1.0
    ensures NonNegativeWeights(p) ==> 0.0 <= r
  {
    var raw :=
      Tier(f.sentences, p.minSentences.GetOr(2), Weight(p, "sentences", 0.3), 0.5)
      + Tier(f.pastHits, 2, Weight(p, "past_tense", 0.4), 0.6)
      + ContentCredit(f.contentHits, p.minContentWordCount.GetOr(3), Weight(p, "content_words", 0.3));
    Min(raw, 1.0)
  }

  /** `heuristic_past_routine_v1`. */
  function PastRoutineScore(text: string, p: Params): (r: real)
    ensures IsBlank(text) ==> r == 0.0
    ensures r <= 1.0
    ensures NonNegativeWeights(p) ==> 0.0 <= r
  {
    if IsBlank(text) then 0.0 else PastRoutineCredit(PastRoutineFeaturesOf(text, p), p)
  }

  /** More sentences, past-tense matches or content hits never lower the score. */
  lemma PastRoutineMonotone(f1: PastRoutineFeatures, f2: PastRoutineFeatures, p: Params)
    requires NonNegativeWeights(p)
    requires f1.sentences <= f2.sentences && f1.pastHits <= f2.pastHits && f1.contentHits <= f2.contentHits
    ensures PastRoutineCredit(f1, p) <= PastRoutineCredit(f2, p)
  {
    TierMonotone(f1.sentences, f2.sentences, p.minSentences.GetOr(2), Weight(p, "sentences", 0.3), 0.5);
    TierMonotone(f1.pastHits, f2.pastHits, 2, Weight(p, "past_tense", 0.4), 0.6);
    ContentCreditMonotone(f1.contentHits, f2.contentHits, p.minContentWordCount.GetOr(3), Weight(p, "content_words", 0.3));
  }

  /** With the default weights, meeting every threshold gives exactly 1.0. */
  lemma PastRoutineFullMarks(f: PastRoutineFeatures, p: Params)
    requires p.weights == map[] && p.minSentences == None && p.minContentWordCount == None
    requires f.sentences >= 2 && f.pastHits >= 2 && f.contentHits >= 3
    ensures PastRoutineCredit(f, p) == 1.0
  {
  }

  // ---------------------------------------------------------------------------
  // heuristic_professor_polite_rewrite_v1
  // ---------------------------------------------------------------------------

  /** The source's default polite-ending pattern `(요|습니다)`. */
  predicate DefaultPoliteEnding(t: string) {
    Contains(t, "요") || Contains(t, "습니다")
  }

  /** The source's default casual-ending pattern `(어\?|어\.|했어|냈어|돼\?)`. */
  predicate DefaultCasualEnding(t: string) {
    Contains(t, "어?") || Contains(t, "어.") || Contains(t, "했어") || Contains(t, "냈어") || Contains(t, "돼?")
  }

  /** What the polite-rewrite heuristic observes in a text. */
  datatype PoliteSignals = PoliteSignals(
    addressesProfessor: bool,
    apologises: bool,
    politeEnding: bool,
    requestHits: nat,
    casualEnding: bool)

  function PoliteSignalsOf(text: string, p: Params): PoliteSignals {
    var polite := p.politeEndingsRegex.GetOr(DefaultPoliteEnding);
    var casual := p.casualEndingsRegex.GetOr(DefaultCasualEnding);
    PoliteSignals(
      AnyPresent(Lexicon(p, "professor_terms", ["교수님"]), text),
      AnyPresent(Lexicon(p, "apology_terms", ["죄송", "실례"]), text),
      polite(text),
      CountPresent(Lexicon(p, "request_keywords", []), text),
      casual(text))
  }

  /** The uncapped sum: one weight per present signal, two request keywords
      needed for the request weight, and the (by default negative) casual
      penalty weight added when a casual ending appears. */
  function PoliteRaw(s: PoliteSignals, p: Params): real {
    (if s.addressesProfessor then Weight(p, "address_professor", 0.2) else 0.0)
    + (if s.apologises then Weight(p, "apology", 0.2) else 0.0)
    + (if s.politeEnding then Weight(p, "polite_endings", 0.4) else 0.0)
    + (if s.requestHits >= 2 then Weight(p, "request_content", 0.2) else 0.0)
    + (if s.casualEnding then Weight(p, "penalty_casual", -0.3) else 0.0)
  }

  /** The raw sum clamped to [0, 1]. */
  function PoliteCredit(s: PoliteSignals, p: Params): (r: real)
    ensures 0.0 <= r <= 1.0
    ensures 0.0 <= PoliteRaw(s, p) <= 1.0 ==> r == PoliteRaw(s, p)
    ensures PoliteRaw(s, p) >= 1.0 ==> r == 1.0
    ensures PoliteRaw(s, p) <= 0.0 ==> r == 0.0
  {
    Max(0.0, Min(PoliteRaw(s, p), 1.0))
  }

  /** `heuristic_professor_polite_rewrite_v1`: in [0, 1] for every text and
      every configuration, and 0.0 for a blank text. */
  function PoliteRewriteScore(text: string, p: Params): (r: real)
    ensures IsBlank(text) ==> r == 0.0
    ensures 0.0 <= r <= 1.0
  {
    if IsBlank(text) then 0.0 else PoliteCredit(PoliteSignalsOf(text, p), p)
  }

  /** A casual ending, with a non-positive penalty weight, never raises the score. */
  lemma CasualPenaltyNeverRaises(s: PoliteSignals, p: Params)
    requires Weight(p, "penalty_casual", -0.3) <= 0.0
    ensures PoliteCredit(s.(casualEnding := true), p) <= PoliteCredit(s.(casualEnding := false), p)
  {
  }

  /** With the default weights, a text whose only signal is a casual ending
      scores 0.0 rather than the negative penalty. */
  lemma CasualOnlyScoresZero(p: Params)
    requires p.weights == map[]
    ensures PoliteCredit(PoliteSignals(false, false, false, 0, true), p) == 0.0
  {
  }

  /** With the default weights, every positive signal and no casual ending
      gives exactly 1.0. */
  lemma PoliteFullMarks(p: Params)
    requires p.weights == map[]
    ensures PoliteCredit(PoliteSignals(true, true, true, 2, false), p) == 1.0
  {
  }
}

=== FILE: levels.dfy ===
/**
  The SKLC level table: a level name and an English and Korean description
  for each global stage 0..5, and the lookup that falls back to stage 0 for
  an unknown stage and to English for an unknown language.
 */
module Levels {
  import opened Types

  /** One row of the level table. */
  datatype Entry = Entry(level: string, descriptionEn: string, descriptionKo: string)

  /** What `get_sklc_description` returns. */
  datatype Description = Description(level: string, description: string)

  /** The stages the table describes. */
  predicate IsKnownStage(stage: int) {
    0 <= stage <= 5
  }

  // The descriptions of each stage, in English and in Korean.
  const En0: string := "Very limited Korean ability. Can recognize some words but cannot form sentences."
  const Ko0: string := "아주 제한적인 한국어 능력. 일부 단어는 알지만 문장을 만들 수 없음."
  const En1: string := "Can handle very basic greetings and self-introduction. Understands simple phrases."
  const Ko1: string := "아주 기본적인 인사와 자기소개 가능. 간단한 표현 이해."
  const En2: string := "Can have simple everyday conversations. Uses basic grammar and common vocabulary."
  const Ko2: string := "간단한 일상 대화 가능. 기본 문법과 일반적인 어휘 사용."
  const En3: string := "Can discuss familiar topics with some detail. Understands and uses various sentence patterns."
  const Ko3: string := "익숙한 주제에 대해 어느 정도 자세히 말할 수 있음. 다양한 문장 패턴 이해 및 사용."
  const En4: string := "Can communicate effectively in most situations. Good control of grammar and appropriate speech levels."
  const Ko4: string := "대부분의 상황에서 효과적으로 의사소통 가능. 문법과 적절한 말투를 잘 조절함."
  const En5: string := "Near-native fluency. Can handle complex topics and formal/informal contexts with ease."
  const Ko5: string := "거의 원어민 수준의 유창함. 복잡한 주제와 공식/비공식 상황을 쉽게 다룸."

  /** The level table, keyed by stage. */
  function LevelTable(stage: int): (e: Option<Entry>)
    ensures e.Some? <==> IsKnownStage(stage)
  {
    if stage == 0 then Some(Entry("Pre-SKLC", En0, Ko0))
    else if stage == 1 then Some(Entry("SKLC Level 1", En1, Ko1))
    else if stage == 2 then Some(Entry("SKLC Level 2", En2, Ko2))
    else if stage == 3 then Some(Entry("SKLC Level 3", En3, Ko3))
    else if stage == 4 then Some(Entry("SKLC Level 4", En4, Ko4))
    else if stage == 5 then Some(Entry("SKLC Level 5", En5, Ko5))
    else None
  }

  /** The table row used for a stage: its own row, or stage 0's. */
  function EntryFor(stage: int): Entry {
    match LevelTable(stage)
    case Some(e) => e
    case None => LevelTable(0).value
  }

  /** `get_sklc_description`: the row's level name and its description in
      `lang`, where only "en" and "ko" have descriptions and any other
      language reads the English one. The source's default `lang` is "en". */
  function Describe(stage: int, lang: string): (r: Description)
    ensures r.level == EntryFor(stage).level
    ensures lang == "ko" ==> r.description == EntryFor(stage).descriptionKo
    ensures lang != "ko" ==> r.description == EntryFor(stage).descriptionEn
  {
    var e := EntryFor(stage);
    Description(e.level, if lang == "ko" then e.descriptionKo else e.descriptionEn)
  }

  /** The stage a level name belongs to, read back from the name. */
  function StageOfLevel(level: string): (stage: Option<int>)
    ensures stage.Some? ==> IsKnownStage(stage.value)
  {
    if level == "Pre-SKLC" then Some(0)
    else if level == "SKLC Level 1" then Some(1)
    else if level == "SKLC Level 2" then Some(2)
    else if level == "SKLC Level 3" then Some(3)
    else if level == "SKLC Level 4" then Some(4)
    else if level == "SKLC Level 5" then Some(5)
    else None
  }

  /** The level name of a described stage names that stage, whatever the
      language, so distinct known stages get distinct level names. */
  lemma LevelNameRoundTrip(stage: int, lang: string)
    requires IsKnownStage(stage)
    ensures StageOfLevel(Describe(stage, lang).level) == Some(stage)
  {
  }

  /** A stage outside 0..5 is described exactly as stage 0. */
  lemma UnknownStageFallsBack(stage: int, lang: string)
    requires !IsKnownStage(stage)
    ensures Describe(stage, lang) == Describe(0, lang)
    ensures StageOfLevel(Describe(stage, lang).level) == Some(0)
  {
  }

  /** A language other than "ko" reads the English description. */
  lemma UnknownLanguageFallsBack(stage: int, lang: string)
    requires lang != "ko"
    ensures Describe(stage, lang) == Describe(stage, "en")
  {
  }
}

=== FILE: lexical.dfy ===
/**
  Text primitives used by the heuristic scorers: Python's notion of
  whitespace (for `str.strip`), substring membership (`word in text`),
  lexicon hit counting and sentence counting.
 */
module Lexical {

  /** The characters Python's `str.isspace` accepts, which `str.strip` removes. */
  predicate IsSpace(c: char) {
    c in {' ', '\t', '\n', '\r', '\U{0B}', '\U{0C}', '\U{1C}', '\U{1D}', '\U{1E}', '\U{1F}',
          '\U{85}', '\U{A0}', '\U{1680}', '\U{2000}', '\U{2001}', '\U{2002}', '\U{2003}',
          '\U{2004}', '\U{2005}', '\U{2006}', '\U{2007}', '\U{2008}', '\U{2009}', '\U{200A}',
          '\U{2028}', '\U{2029}', '\U{202F}', '\U{205F}', '\U{3000}'}
  }

  /** `not text.strip()`: the text is empty or holds only whitespace. */
  predicate IsBlank(t: string) {
    forall i :: 0 <= i < |t| ==> IsSpace(t[i])
  }

  /** `w in t` for Python strings: `w` occurs as a contiguous substring of `t`
      (the empty string occurs in every text). */
  predicate Contains(t: string, w: string) {
    exists i :: 0 <= i <= |t| - |w| && OccursAt(t, w, i)
  }

  /** `w` occurs in `t` starting at position `i`. */
  predicate OccursAt(t: string, w: string, i: int) {
    0 <= i <= |t| - |w| && t[i..i + |w|] == w
  }

  /** The positions of a sequence of flags that are set. */
  ghost function TrueIndices(bs: seq<bool>): set<int> {
    set k | 0 <= k < |bs| && bs[k]
  }

  /** Counting set flags from the back: the last flag adds one position. */
  lemma TrueIndicesBack(bs: seq<bool>)
    requires |bs| > 0
    ensures |TrueIndices(bs)| == |TrueIndices(bs[..|bs| - 1])| + (if bs[|bs| - 1] then 1 else 0)
  {
    var n := |bs| - 1;
    var init := TrueIndices(bs[..n]);
    if bs[n] {
      assert TrueIndices(bs) == init + {n};
    } else {
      assert TrueIndices(bs) == init;
    }
  }

  /** Counting set flags from the front: the first flag adds one position
      and the rest are counted as a sequence of their own. */
  lemma {:induction false} TrueIndicesFront(bs: seq<bool>)
    requires |bs| > 0
    ensures |TrueIndices(bs)| == (if bs[0] then 1 else 0) + |TrueIndices(bs[1..])|
    decreases |bs|
  {
    var n := |bs| - 1;
    TrueIndicesBack(bs);
    if n > 0 {
      TrueIndicesFront(bs[..n]);
      TrueIndicesBack(bs[1..]);
      assert bs[..n][1..] == bs[1..][..n - 1];
    } else {
      assert TrueIndices(bs[1..]) == {};
    }
  }

  /** The positions of the listed words that occur in `t`. */
  ghost function PresentIndices(words: seq<string>, t: string): set<int> {
    set k | 0 <= k < |words| && Contains(t, words[k])
  }

  /** The present positions split into the first word and the rest, shifted. */
  lemma PresentIndicesFront(words: seq<string>, t: string)
    requires |words| > 0
    ensures |PresentIndices(words, t)| == (if Contains(t, words[0]) then 1 else 0) + |PresentIndices(words[1..], t)|
  {
    var bs := seq(|words|, k requires 0 <= k < |words| => Contains(t, words[k]));
    assert PresentIndices(words, t) == TrueIndices(bs);
    assert PresentIndices(words[1..], t) == TrueIndices(bs[1..]);
    TrueIndicesFront(bs);
  }

  /** `sum(1 for w in words if w in t)`: the number of list entries (with
      repetitions) that occur in `t`. */
  function CountPresent(words: seq<string>, t: string): (n: nat)
    ensures n <= |words|
    ensures n == |words| <==> forall k :: 0 <= k < |words| ==> Contains(t, words[k])
    ensures n == 0 <==> forall k :: 0 <= k < |words| ==> !Contains(t, words[k])
  {
    if |words| == 0 then 0
    else
      var rest := CountPresent(words[1..], t);
      assert forall k :: 1 <= k < |words| ==> words[k] == words[1..][k - 1];
      (if Contains(t, words[0]) then 1 else 0) + rest
  }

  /** The count is exactly the number of positions whose word occurs in `t`. */
  lemma {:induction false} CountPresentIsCardinality(words: seq<string>, t: string)
    ensures CountPresent(words, t) == |PresentIndices(words, t)|
    decreases |words|
  {
    if |words| == 0 {
      assert PresentIndices(words, t) == {};
    } else {
      CountPresentIsCardinality(words[1..], t);
      PresentIndicesFront(words, t);
    }
  }

  /** `any(w in t for w in words)`. */
  predicate AnyPresent(words: seq<string>, t: string) {
    exists k :: 0 <= k < |words| && Contains(t, words[k])
  }

  /** The sentence-final marks: `.`, `?`, `!` and the ideographic full stop. */
  predicate IsTerminator(c: char) {
    c == '.' || c == '?' || c == '!' || c == '\U{3002}'
  }

  /** `len(re.findall(r'[.?!。]', t))`. */
  function CountTerminators(t: string): nat {
    if |t| == 0 then 0
    else (if IsTerminator(t[0]) then 1 else 0) + CountTerminators(t[1..])
  }

  /** Counting sentence marks distributes over concatenation. */
  lemma {:induction false} CountTerminatorsAppend(a: string, b: string)
    ensures CountTerminators(a + b) == CountTerminators(a) + CountTerminators(b)
  {
    if |a| == 0 {
      assert a + b == b;
    } else {
      assert (a + b)[1..] == a[1..] + b;
      CountTerminatorsAppend(a[1..], b);
    }
  }

  /** A text without any sentence mark counts none. */
  lemma {:induction false} NoTerminatorsCountsZero(t: string)
    requires forall i :: 0 <= i < |t| ==> !IsTerminator(t[i])
    ensures CountTerminators(t) == 0
  {
    if |t| > 0 {
      NoTerminatorsCountsZero(t[1..]);
    }
  }

  /** `count_sentences`: 0 for a blank text, otherwise the number of sentence
      marks with a floor of 1. */
  function CountSentences(t: string): (n: nat)
    ensures IsBlank(t) ==> n == 0
    ensures !IsBlank(t) ==> n >= 1 && n >= CountTerminators(t)
    ensures !IsBlank(t) ==> n == 1 || n == CountTerminators(t)
  {
    if IsBlank(t) then 0
    else if CountTerminators(t) >= 1 then CountTerminators(t)
    else 1
  }

  /** `s.replace(" ", "")`: drop every ASCII space. */
  function RemoveSpaces(s: string): (r: string)
    ensures |r| <= |s|
    ensures forall i :: 0 <= i < |r| ==> r[i] != ' ' && r[i] in s
  {
    if |s| == 0 then ""
    else if s[0] == ' ' then RemoveSpaces(s[1..])
    else [s[0]] + RemoveSpaces(s[1..])
  }

  /** Removing spaces distributes over concatenation. */
  lemma {:induction false} RemoveSpacesAppend(a: string, b: string)
    ensures RemoveSpaces(a + b) == RemoveSpaces(a) + RemoveSpaces(b)
  {
    if |a| == 0 {
      assert a + b == b;
    } else {
      assert (a + b)[0] == a[0];
      assert (a + b)[1..] == a[1..] + b;
      RemoveSpacesAppend(a[1..], b);
    }
  }

  /** A text without spaces is left unchanged. */
  lemma {:induction false} RemoveSpacesNoSpace(s: string)
    requires forall i :: 0 <= i < |s| ==> s[i] != ' '
    ensures RemoveSpaces(s) == s
  {
    if |s| > 0 {
      RemoveSpacesNoSpace(s[1..]);
      assert [s[0]] + s[1..] == s;
    }
  }

  /** Removing spaces is idempotent. */
  lemma RemoveSpacesIdempotent(s: string)
    ensures RemoveSpaces(RemoveSpaces(s)) == RemoveSpaces(s)
  {
    RemoveSpacesNoSpace(RemoveSpaces(s));
  }
}

=== FILE: mcq.dfy ===
/**
  Single-choice scoring: an ordered rule table evaluated first-match.
 */
module Mcq {
  import opened Types

  /** Whether a rule's condition accepts the selected option: exact equality
      with `selected_option_id`, any non-empty selection when
      `selected_option_id_any` is true, or membership in `selected_option_id_in`. */
  predicate Matches(c: Condition, response: string) {
    || (c.selectedOptionId.Some? && response == c.selectedOptionId.value)
    || (c.selectedOptionIdAny == Some(true) && response != "")
    || (c.selectedOptionIdIn.Some? && response in c.selectedOptionIdIn.value)
  }

  /** Rule `i` is the first rule of the table whose condition accepts `response`. */
  predicate IsFirstMatch(rules: seq<Rule>, response: string, i: int) {
    && 0 <= i < |rules|
    && Matches(rules[i].condition, response)
    && forall j :: 0 <= j < i ==> !Matches(rules[j].condition, response)
  }

  /** Every rule awards a score in [0, 1]. */
  predicate RuleScoresInUnit(rules: seq<Rule>) {
    forall i :: 0 <= i < |rules| ==> 0.0 <= rules[i].score <= 1.0
  }

  /** `score_mcq_single`: the score of the first matching rule, in table
      order, or 0.0 when no rule matches. */
  function ScoreMcqSingle(response: string, rules: seq<Rule>): (r: real)
    ensures forall i :: IsFirstMatch(rules, response, i) ==> r == rules[i].score
    ensures (forall i :: 0 <= i < |rules| ==> !Matches(rules[i].condition, response)) ==> r == 0.0
    ensures RuleScoresInUnit(rules) ==> 0.0 <= r <= 1.0
  {
    if |rules| == 0 then 0.0
    else if Matches(rules[0].condition, response) then rules[0].score
    else
      var r := ScoreMcqSingle(response, rules[1..]);
      assert forall i :: IsFirstMatch(rules, response, i) ==> IsFirstMatch(rules[1..], response, i - 1);
      r
  }

  /** Some rule of the table accepts the response. */
  predicate AnyMatch(rules: seq<Rule>, response: string) {
    exists k :: 0 <= k < |rules| && Matches(rules[k].condition, response)
  }

  /** The score agrees with the reference reading of the table: the score of
      the rule `FirstMatchIndex` finds when some rule matches, else 0.0. */
  lemma ScoreIsFirstMatchScore(response: string, rules: seq<Rule>)
    ensures ScoreMcqSingle(response, rules)
            == if AnyMatch(rules, response) then rules[FirstMatchIndex(response, rules)].score else 0.0
  {
    if AnyMatch(rules, response) {
      var i := FirstMatchIndex(response, rules);
      assert IsFirstMatch(rules, response, i);
    }
  }

  /** The index of the first matching rule, when one matches. */
  function FirstMatchIndex(response: string, rules: seq<Rule>): (i: nat)
    requires AnyMatch(rules, response)
    ensures IsFirstMatch(rules, response, i)
  {
    if Matches(rules[0].condition, response) then 0
    else
      assert AnyMatch(rules[1..], response) by {
        var k :| 0 <= k < |rules| && Matches(rules[k].condition, response);
        assert rules[1..][k - 1] == rules[k];
      }
      1 + FirstMatchIndex(response, rules[1..])
  }

  /** Order matters: once some rule accepts the response, the rules after it
      never influence the score, whatever they are replaced by. */
  lemma LaterRulesIrrelevant(response: string, rules: seq<Rule>, i: int, tail: seq<Rule>)
    requires 0 <= i < |rules| && Matches(rules[i].condition, response)
    ensures ScoreMcqSingle(response, rules[..i + 1] + tail) == ScoreMcqSingle(response, rules)
  {
    var k := FirstMatchIndex(response, rules);
    var rs := rules[..i + 1] + tail;
    assert forall j :: 0 <= j <= i ==> rs[j] == rules[j];
    assert IsFirstMatch(rs, response, k);
  }

  /** A single exact-id rule awards its score to that selection. */
  lemma ExactSelectionScenario()
    ensures ScoreMcqSingle("2", [Rule(Condition(Some("2"), None, None), 0.8)]) == 0.8
  {
    assert IsFirstMatch([Rule(Condition(Some("2"), None, None), 0.8)], "2", 0);
  }

  /** An empty response never matches an "any selection" rule. */
  lemma AnyRuleIgnoresEmpty(score: real)
    ensures ScoreMcqSingle("", [Rule(Condition(None, Some(true), None), score)]) == 0.0
  {
  }
}

=== FILE: stage.dfy ===
/**
  The global stage: the average of the bands of the included domains,
  rounded half-to-even (Python's `round`) and clamped to the configured
  stage range.
 */
module Stage {
  import Arith

  /** Python's `round` on a real: the nearest integer, ties to the even one. */
  function RoundHalfEven(x: real): (r: int)
    ensures r as real - 0.5 <= x <= r as real + 0.5
    ensures (x == r as real - 0.5 || x == r as real + 0.5) ==> r % 2 == 0
  {
    var f := x.Floor;
    var frac := x - f as real;
    if frac < 0.5 then f
    else if frac > 0.5 then f + 1
    else if f % 2 == 0 then f
    else f + 1
  }

  /** The two properties of `RoundHalfEven` single out its result: no other
      integer is as close to `x` with ties going to the even neighbour. */
  lemma RoundHalfEvenUnique(x: real, k: int)
    requires k as real - 0.5 <= x <= k as real + 0.5
    requires (x == k as real - 0.5 || x == k as real + 0.5) ==> k % 2 == 0
    ensures k == RoundHalfEven(x)
  {
    var r := RoundHalfEven(x);
    assert k - 1 <= r <= k + 1;
  }

  /** Halves go to the even neighbour: 2.5 rounds to 2 and 3.5 to 4. */
  lemma RoundingTies()
    ensures RoundHalfEven(2.5) == 2 && RoundHalfEven(3.5) == 4 && RoundHalfEven(0.5) == 0
  {
    RoundHalfEvenUnique(2.5, 2);
    RoundHalfEvenUnique(3.5, 4);
    RoundHalfEvenUnique(0.5, 0);
  }

  /** `[domain_bands[d] for d in included if d in domain_bands]`: the bands of
      the included domains that have one, in order (a domain listed twice
      contributes twice). */
  function IncludedBands(domainBands: map<string, int>, included: seq<string>): (bs: seq<int>)
    ensures |bs| <= |included|
    ensures bs == [] <==> forall k :: 0 <= k < |included| ==> included[k] !in domainBands
    ensures forall k :: 0 <= k < |bs| ==> bs[k] in domainBands.Values
  {
    if |included| == 0 then []
    else
      var rest := IncludedBands(domainBands, included[1..]);
      assert forall k :: 1 <= k < |included| ==> included[k] == included[1..][k - 1];
      (if included[0] in domainBands then [domainBands[included[0]]] else []) + rest
  }

  /** The included bands of a concatenation are those of its parts, in
      order: the list is built domain by domain. */
  lemma {:induction false} IncludedBandsAppend(domainBands: map<string, int>, a: seq<string>, b: seq<string>)
    ensures IncludedBands(domainBands, a + b) == IncludedBands(domainBands, a) + IncludedBands(domainBands, b)
    decreases |a|
  {
    if |a| == 0 {
      assert a + b == b;
    } else {
      assert (a + b)[0] == a[0] && (a + b)[1..] == a[1..] + b;
      IncludedBandsAppend(domainBands, a[1..], b);
    }
  }

  /** A single domain contributes its band when it has one, and nothing
      otherwise; with `IncludedBandsAppend` this fixes the whole list. */
  lemma IncludedBandsSingleton(domainBands: map<string, int>, d: string)
    ensures IncludedBands(domainBands, [d]) == if d in domainBands then [domainBands[d]] else []
  {
    assert [d][1..] == [];
  }

  /** Every included band is a band of the map, so it lies in any range
      that holds all of the map's bands. */
  lemma {:induction false} IncludedBandsWithin(domainBands: map<string, int>, included: seq<string>, lo: int, hi: int)
    requires forall d :: d in domainBands ==> lo <= domainBands[d] <= hi
    ensures AllWithin(IncludedBands(domainBands, included), lo, hi)
  {
    if |included| > 0 {
      IncludedBandsWithin(domainBands, included[1..], lo, hi);
    }
  }

  function Sum(bs: seq<int>): int {
    if |bs| == 0 then 0 else bs[0] + Sum(bs[1..])
  }

  /** Every value lies in [lo, hi]. */
  predicate AllWithin(bs: seq<int>, lo: int, hi: int) {
    forall k :: 0 <= k < |bs| ==> lo <= bs[k] <= hi
  }

  /** A sum of `n` values in [lo, hi] lies in [lo * n, hi * n]. */
  lemma {:induction false} SumBounds(bs: seq<int>, lo: int, hi: int)
    requires AllWithin(bs, lo, hi)
    ensures lo * |bs| <= Sum(bs) <= hi * |bs|
  {
    if |bs| > 0 {
      assert AllWithin(bs[1..], lo, hi) by {
        assert forall k :: 0 <= k < |bs| - 1 ==> bs[1..][k] == bs[k + 1];
      }
      SumBounds(bs[1..], lo, hi);
      assert lo * |bs| == lo + lo * (|bs| - 1);
      assert hi * |bs| == hi + hi * (|bs| - 1);
    }
  }

  /** `sum(bands) / len(bands)`. */
  function Average(bs: seq<int>): real
    requires |bs| > 0
  {
    Sum(bs) as real / |bs| as real
  }

  /** The average of values in [lo, hi] lies in [lo, hi]. */
  lemma AverageBounds(bs: seq<int>, lo: int, hi: int)
    requires |bs| > 0 && AllWithin(bs, lo, hi)
    ensures lo as real <= Average(bs) <= hi as real
  {
    var n := |bs| as real;
    assert lo as real * n <= Sum(bs) as real <= hi as real * n by {
      SumBounds(bs, lo, hi);
      assert (lo * |bs|) as real == lo as real * n;
      assert (hi * |bs|) as real == hi as real * n;
    }
    Arith.QuotientBetween(Sum(bs) as real, n, lo as real, hi as real);
  }

  /** `max(lo, min(x, hi))`. */
  function Clamp(x: int, lo: int, hi: int): (r: int)
    ensures lo <= hi ==> lo <= r <= hi
    ensures lo <= x <= hi ==> r == x
    ensures x < lo ==> r == lo
    ensures lo <= hi && x > hi ==> r == hi
  {
    if x <= hi then (if lo >= x then lo else x)
    else (if lo >= hi then lo else hi)
  }

  /** The global stage: the rounded, clamped average of the included bands,
      or 0 when no included domain has a band. */
  function GlobalStage(domainBands: map<string, int>, included: seq<string>, minStage: int, maxStage: int): (r: int)
    ensures IncludedBands(domainBands, included) == [] ==> r == 0
    ensures IncludedBands(domainBands, included) != [] && minStage <= maxStage ==> minStage <= r <= maxStage
  {
    var bs := IncludedBands(domainBands, included);
    if |bs| > 0 then Clamp(RoundHalfEven(Average(bs)), minStage, maxStage) else 0
  }

  /** When the included bands lie in [lo, hi] and that range lies within the
      configured stage range, the stage lies in [lo, hi] too: rounding and
      clamping never leave the range of the bands being averaged. */
  lemma StageWithinBandRange(domainBands: map<string, int>, included: seq<string>, minStage: int, maxStage: int, lo: int, hi: int)
    requires IncludedBands(domainBands, included) != []
    requires AllWithin(IncludedBands(domainBands, included), lo, hi)
    requires minStage <= lo && hi <= maxStage
    ensures lo <= GlobalStage(domainBands, included, minStage, maxStage) <= hi
  {
    var bs := IncludedBands(domainBands, included);
    AverageBounds(bs, lo, hi);
    var r := RoundHalfEven(Average(bs));
    assert lo <= r <= hi;
  }

  /** When every included domain has the same band, that band is the stage
      (if it lies in the configured range). */
  lemma UnanimousBands(domainBands: map<string, int>, included: seq<string>, minStage: int, maxStage: int, b: int)
    requires IncludedBands(domainBands, included) != []
    requires AllWithin(IncludedBands(domainBands, included), b, b)
    requires minStage <= b <= maxStage
    ensures GlobalStage(domainBands, included, minStage, maxStage) == b
  {
    StageWithinBandRange(domainBands, included, minStage, maxStage, b, b);
  }

  /** A domain listed twice counts twice: with bands a = 0 and b = 3, the
      included list ["a", "a", "b"] gives bands [0, 0, 3], average 1, so
      stage 1 (counting "a" once would give 1.5, so stage 2). */
  lemma DuplicateDomainScenario()
    ensures IncludedBands(map["a" := 0, "b" := 3], ["a", "a", "b"]) == [0, 0, 3]
    ensures GlobalStage(map["a" := 0, "b" := 3], ["a", "a", "b"], 0, 5) == 1
  {
    var m := map["a" := 0, "b" := 3];
    var inc := ["a", "a", "b"];
    assert inc == ["a"] + ["a"] + ["b"];
    IncludedBandsAppend(m, ["a"] + ["a"], ["b"]);
    IncludedBandsAppend(m, ["a"], ["a"]);
    IncludedBandsSingleton(m, "a");
    IncludedBandsSingleton(m, "b");
    assert IncludedBands(m, inc) == [0, 0, 3];
    assert Sum([0, 0, 3]) == 3 by {
      assert [0, 0, 3][1..] == [0, 3] && [0, 3][1..] == [3] && [3][1..] == [];
    }
    assert Average([0, 0, 3]) == 1.0;
    RoundHalfEvenUnique(1.0, 1);
  }

  /** Two domains with bands 2 and 3 average 2.5, which rounds to the even
      stage 2; bands 3 and 4 give 4. */
  lemma TiedAverageScenario()
    ensures GlobalStage(map["grammar" := 2, "vocabulary" := 3], ["grammar", "vocabulary"], 0, 5) == 2
    ensures GlobalStage(map["grammar" := 3, "vocabulary" := 4], ["grammar", "vocabulary"], 0, 5) == 4
  {
    var m1 := map["grammar" := 2, "vocabulary" := 3];
    var m2 := map["grammar" := 3, "vocabulary" := 4];
    var inc := ["grammar", "vocabulary"];
    assert inc[1..] == ["vocabulary"] && inc[1..][1..] == [];
    assert IncludedBands(m1, inc) == [2, 3];
    assert IncludedBands(m2, inc) == [3, 4];
    assert Average([2, 3]) == 2.5 by {
      assert [2, 3][1..] == [3] && [3][1..] == [];
    }
    assert Average([3, 4]) == 3.5 by {
      assert [3, 4][1..] == [4] && [4][1..] == [];
    }
    RoundingTies();
  }
}

=== FILE: types.dfy ===
/**
  The data model of the assessment scoring engine: item definitions with their
  tagged scoring specifications, the per-heuristic parameter bag, band
  definitions and the global-stage configuration. Everything here is an
  immutable value; the loader that builds these values from a JSON document is
  not part of this model.
 */
module Types {

  /** An optional value, used for configuration keys that may be absent. */
  datatype Option<T> = None | Some(value: T) {
    /** The held value, or `default` when absent (Python's `dict.get(key, default)`). */
    function GetOr(default: T): T {
      match this
      case Some(v) => v
      case None => default
    }
  }

  /** A regular expression supplied by configuration, seen only through the
      number of non-overlapping matches it finds in a text (`len(re.findall(p, t))`). */
  type MatchCounter = string -> nat

  /** A regular expression supplied by configuration, seen only through whether
      it matches somewhere in a text (`re.search(p, t)` is truthy). */
  type MatchTest = string -> bool

  /** The free-form `params` bag of a text or audio item. Every key is optional;
      each scorer supplies its own default for a missing key. */
  datatype Params = Params(
    weights: map<string, real>,               // params["weights"]
    lexicons: map<string, seq<string>>,       // the word lists of params["lexicons"]
    minContentWordCount: Option<int>,         // params["lexicons"]["min_content_word_count"]
    minSentences: Option<int>,                // params["min_sentences"]
    pastTenseRegex: Option<MatchCounter>,     // params["patterns"]["past_tense_regex"]
    politeEndingsRegex: Option<MatchTest>,    // params["patterns"]["polite_endings_regex"]
    casualEndingsRegex: Option<MatchTest>,    // params["patterns"]["casual_endings_regex"]
    targetWords: seq<string>,                 // params["target_words"], [] when absent
    targetSentences: seq<string>              // params["target_sentences"], [] when absent
  )

  /** The condition of a single-choice rule. A condition object may carry any
      subset of the three keys; an absent key never matches. */
  datatype Condition = Condition(
    selectedOptionId: Option<string>,
    selectedOptionIdAny: Option<bool>,
    selectedOptionIdIn: Option<seq<string>>
  )

  datatype Rule = Rule(condition: Condition, score: real)

  /** The closed set of registered scoring methods, plus the case of a method
      name that is missing or not registered. */
  datatype ScoringMethod =
    | SelfIntroV1
    | PastRoutineV1
    | PoliteRewriteV1
    | PronWordlistV1
    | PronSentenceV1
    | Unregistered

  /** The `scoring` object of an item, tagged by its `response_type`. */
  datatype Scoring =
    | SingleChoice(rules: seq<Rule>)
    | TextResponse(scorer: ScoringMethod, params: Params)
    | AudioResponse(scorer: ScoringMethod, params: Params)
    | UnknownResponseType

  /** One assessment item. `domains` maps a domain name to the weight this
      item contributes to it. */
  datatype Item = Item(id: string, domains: map<string, real>, scoring: Scoring)

  /** One row of the banding table: scores in [minScore, maxScore] get `band`. */
  datatype BandDef = BandDef(band: int, minScore: real, maxScore: real)

  /** `aggregation.global_stage`; every key is optional. */
  datatype StageConfig = StageConfig(
    includedDomains: Option<seq<string>>,
    minStage: Option<int>,
    maxStage: Option<int>
  )

  /** An assessment definition: domains, items, banding table and stage config. */
  datatype Assessment = Assessment(
    title: string,
    domains: seq<string>,
    items: seq<Item>,
    bands: seq<BandDef>,
    stage: StageConfig
  )

  /** The result document of one learner's assessment. */
  datatype Results = Results(
    domainRawScores: map<string, real>,
    domainBands: map<string, int>,
    globalStage: int
  )

  /** `weights.get(key, default)`. */
  function Weight(p: Params, key: string, default: real): real {
    if key in p.weights then p.weights[key] else default
  }

  /** `lexicons.get(key, default)`. */
  function Lexicon(p: Params, key: string, default: seq<string>): seq<string> {
    if key in p.lexicons then p.lexicons[key] else default
  }

  /** Every configured weight is non-negative. */
  predicate NonNegativeWeights(p: Params) {
    forall k :: k in p.weights ==> p.weights[k] >= 0.0
  }
}
